=== FILE: README.md ===
# Academic rule engine of academic-api, in Dafny

This project models the rule engine of a Django course-enrollment service.
The engine covers the following:

- **Accounts.** Users hold a nullable role (admin, instructor or student). A user may have a Student
  and an Instructor profile, and each profile carries a per-term credit limit.
- **Subjects.** A subject has a number of credits, a set of prerequisites and an optional assigned
  instructor.
- **Enrollment rows.** A row is one student's record in one subject. Its state is enrolled,
  approved, failed or closed, and it has an optional grade.
- **Notifications.** These are a retention-purged inbox.

The model is functional. The database is an immutable value `Store.Db`:

- users and subjects are maps keyed by id;
- enrollment rows form a sequence in primary-key order;
- notifications form a sequence.

Every service is a pure function, except the student history, which is a method with an insertion loop.
A service returns the new database, or a `Result` error that stands for the exception it raises.

The modules follow the source layout:

| module | file | source |
|---|---|---|
| `Base` | `base.dfy` | Shared sequence utilities that stand in for the ORM's `filter`, `count` and `Avg`. |
| `AccountsModels` | `accounts_models.dfy` | Roles, users and the two profiles (`accounts/models.py`). |
| `SubjectsModels` | `subjects_models.dfy` | Subjects, enrollment rows and the four states (`subjects/models.py`). |
| `Notifications` | `notifications.dfy` | Notification rows and the 90-day purge (`notifications/tasks.py`). |
| `Store` | `store.dfy` | The tables, the integrity constraints of the schema, and its cascading deletes. |
| `SubjectsServices` | `subjects_services.dfy` | Eligibility, enrollment, student views, GPA, history, grading, closing and instructor assignment (`subjects/services.py`). |
| `AccountsServices` | `accounts_services.dfy` | Role assignment and the administrator statistics (`accounts/services.py`). |
| `Signals` | `signals.dfy` | The post-save hook that provisions profiles and the welcome notification (`accounts/signals.py`). |
| `Permissions` | `permissions.dfy` | The three role permission predicates (`common/permissions.py`). |
| `Decorators` | `decorators.dfy` | The eligibility guard in front of the enroll view, and the credit-limit invariant it maintains (`common/decorators.py`). |

Units and conventions:

- **Grades** are integers counting tenths. 3.0 is `30`, the pass mark, and 5.0 is `50`, the maximum.
- **Rates and averages** are exact `real`s.
- **Timestamps** are integer seconds. The clock is an explicit `now` parameter.

### Retaking a failed subject

The eligibility check deliberately lets a failed row through, so a failed subject can be retaken.
The enroll service, however, is a get-or-create on the (student, subject) pair, and that pair is
unique. It therefore hands back the old failed row unchanged: the "retake" leaves the row failed
and adds nothing. `SubjectsServices.RetakeKeepsFailedRow` proves this for every well-formed database.

## Model

| member | source | states |
|---|---|---|
| Base.Mean | subjects/services.py:132 | The average of an empty list is 0. Otherwise the mean times the number of values is their sum. |
| AccountsModels.ParseRole | accounts/models.py:26-32 | Looking a role up by name finds the role whose stored name it is. An unknown name finds none. |
| AccountsModels.RoleTextInjective | accounts/models.py:32 | Role names are unique: two roles have the same name iff they are the same role. |
| AccountsModels.WithStudentProfile | accounts/models.py:66-67 | Provisioning a Student profile keeps an existing profile as it is. Otherwise it adds one with the default limit of 16. Role and Instructor profile are untouched. |
| AccountsModels.WithInstructorProfile | accounts/models.py:80-81 | The same as `WithStudentProfile` for the Instructor profile, whose default limit is 20. |
| AccountsModels.StudentLimit | subjects/services.py:48 | The limit the credit rule applies is the Student profile's limit, or 0 when the user has no Student profile. |
| SubjectsModels.ParseState | subjects/models.py:59-64 | Reading a stored state accepts exactly the four choices. |
| SubjectsModels.ParseStateText | subjects/models.py:59-64 | Every state survives a store/load round trip. |
| SubjectsModels.NewEnrollment | subjects/models.py:68-70 | A new row is enrolled, has a null grade, and is stamped with the creation time. |
| Notifications.Purge | notifications/tasks.py:7-8 | No survivor is read and older than the cut-off. Every other notification keeps its multiplicity. Survivors keep their relative order. |
| Notifications.PurgeKeepsUnread | notifications/tasks.py:8 | An unread notification survives, however old it is. |
| Notifications.PurgeKeepsRecent | notifications/tasks.py:7-8 | A notification created at or after now minus 90 days survives, the cut-off instant included. |
| Notifications.PurgeRemovesExpired | notifications/tasks.py:7-8 | A read notification created strictly before the cut-off is gone. |
| Notifications.PurgeIdempotent | notifications/tasks.py:7-8 | A second purge with the same clock deletes nothing more. |
| Notifications.PurgeNothingExpired | notifications/tasks.py:7-8 | A list with nothing expired is returned as it is. |
| Store.NextId | subjects/services.py:70-74 | The key a new row receives is larger than every key in use. |
| Store.InsertEnrollment | subjects/models.py:66-73 | An insert fails iff one of these holds: the (student, subject) pair already has a row, the key is in use, a reference dangles, or the grade does not fit the column. A grade too wide for `max_digits=3, decimal_places=1` is a data error. Every other failure is an integrity error. Otherwise exactly that row is appended. |
| Store.InsertEnrollmentWellFormed | subjects/models.py:72-73 | An accepted insert keeps keys and pairs unique and references resolved. |
| Store.DuplicateInsertRejected | subjects/models.py:72-73 | A second insert for a pair that already has a row is rejected. The error is an integrity error unless the second row's grade is too wide for the column. |
| Store.DeleteSubject | subjects/models.py:67 | Deleting a subject removes exactly its rows, in order, through RowsOutside. It drops the subject from every prerequisite set and leaves users and notifications alone. |
| Store.RowsOutside | subjects/models.py:67 | The rows not in the subject, in table order, each with its original multiplicity. No row of the subject remains. |
| Store.RowsWithout | subjects/models.py:66 | The rows not held by the user, in table order, each with its original multiplicity. No row of the user remains. |
| Store.NotificationsWithout | notifications/models.py:40 | The notifications not addressed to the user, in order, each with its original multiplicity. None addressed to the user remains. |
| Store.DeleteUser | subjects/models.py:28-33 | Deleting a user removes exactly that user's rows and notifications and keeps roles. Every subject the user taught gets a null instructor, and nothing else in any subject changes. |
| Store.DeleteRole | accounts/models.py:53 | Deleting a role is refused iff some user holds it. Otherwise only the role goes: users, subjects, rows and notifications are unchanged. |
| Store.DeleteSubjectWellFormed | subjects/models.py:67 | The cascade leaves a well-formed database. |
| Store.DeleteUserWellFormed | subjects/models.py:28-33 | Both cascade and set-null leave a well-formed database. |
| Store.DeleteRoleWellFormed | accounts/models.py:53 | Deleting a role keeps every user's role reference resolved. |
| Store.SameShapeWellFormed | subjects/models.py:66-73 | Rewriting rows in place, keeping each row's key, student and subject, keeps the database well formed. |
| Store.PrerequisitesNotSymmetric | subjects/models.py:27 | A well-formed database can have A require B while B does not require A. |
| SubjectsServices.CanEnroll | subjects/services.py:33-55 | There is one if-and-only-if per outcome, in rule order: role, then an existing blocking row, then approved prerequisites, then the strict credit comparison. An unknown subject raises only after the role check passed. |
| SubjectsServices.OnlyStudentsAllowed | subjects/services.py:33-34 | An allowed user always has the student role. |
| SubjectsServices.FailedRowDoesNotBlock | subjects/services.py:38-39 | When the only rows for the pair are failed, the answer is never "already taken or enrolled". |
| SubjectsServices.ClosedPrereqIsMissing | subjects/services.py:41-46 | A prerequisite whose row is closed, not approved, is reported missing. |
| SubjectsServices.Enroll | subjects/services.py:69-75 | An unknown subject raises NotFound. Otherwise an existing row for the pair is returned and nothing changes. Otherwise, for an unknown student, the insert breaks the student foreign key and raises IntegrityError. Otherwise exactly one enrolled, ungraded row with a fresh key is appended. |
| SubjectsServices.EnrollIdempotent | subjects/services.py:70-74 | Enrolling twice gives the same row and database as enrolling once. |
| SubjectsServices.EnrollWellFormed | subjects/services.py:70-74 | Enrollment keeps the database well formed. |
| SubjectsServices.RetakeKeepsFailedRow | subjects/services.py:38-74 | A failed row passes the "already taken" rule, yet enrolling returns it unchanged. |
| SubjectsServices.StudentRows | subjects/services.py:145 | The student's rows: exactly those rows, in table order, each as often as in the table. |
| SubjectsServices.RowsInState | subjects/services.py:78-114 | A student's rows in one state: exactly those rows, in table order, each as often as in the table. This is the enrolled, approved and failed views. |
| SubjectsServices.AllGrades | accounts/services.py:96 | The k-th value is the grade of the k-th graded row, and there is one value per graded row. The list is empty iff no row is graded, and it lies in range when the recorded grades do. |
| SubjectsServices.StateViewsPartition | subjects/services.py:78-114 | The four per-state views of a student add up to all of that student's rows. |
| SubjectsServices.StudentGrades | subjects/services.py:127 | The student's grades are empty iff no row of the student is graded. They lie in range when the recorded grades do. |
| SubjectsServices.StudentGradesOfRows | subjects/services.py:127 | The student's grades are exactly the grades of the student's rows, in table order, whatever the state. |
| SubjectsServices.Gpa | subjects/services.py:127-132 | The GPA is 0 with no grades, and lies in [0, 5.0] when every grade does. |
| SubjectsServices.GpaIsMean | subjects/services.py:127-132 | The GPA is the sum of the grades on the student's rows divided by their number, and 0 when none is graded. |
| SubjectsServices.GpaExample | subjects/services.py:127-132 | Grades 5.0, 4.0 and 3.0 give exactly 4.0. |
| SubjectsServices.StudentGradesIgnoreState | subjects/services.py:127 | The GPA does not depend on row states, only on who holds which grade. |
| SubjectsServices.ConsByCreation | subjects/services.py:145 | A row no newer than the head can be put in front of a creation-ordered list. |
| SubjectsServices.InsertByCreation | subjects/services.py:145 | Insertion into a creation-ordered list keeps the order, grows it by one, and adds exactly the new row as a multiset. The head is the new row or the old head. |
| SubjectsServices.History | subjects/services.py:145 | The history is a permutation of the student's rows, ordered by creation time. |
| SubjectsServices.StudentsBySubject | subjects/services.py:159 | The list is empty unless the caller is the subject's instructor. In that case it holds every row of the subject, in order. |
| SubjectsServices.StudentsBySubjectCounts | subjects/services.py:159 | For the subject's instructor, the list holds each of the subject's rows exactly as often as the table does, and nothing else. |
| SubjectsServices.StateForGrade | subjects/services.py:192 | A grade of 3.0 or more approves. Anything below fails. |
| SubjectsServices.Grade | subjects/services.py:183-202 | An out-of-range value fails before any lookup. A row not on one of the caller's subjects is not found. On success only that row changes: it gets the grade, and a state decided by the grade alone. One "grade" notification is appended. |
| SubjectsServices.GradeBoundaries | subjects/services.py:183-192 | 3.0 approves and 2.9 fails. 0 and 5.0 are accepted; -0.1 and 5.1 are not. |
| SubjectsServices.GradeWellFormed | subjects/services.py:190-201 | Grading keeps the database well formed. |
| SubjectsServices.CloseRows | subjects/services.py:231 | Every row of the subject becomes closed. Every other row is untouched. |
| SubjectsServices.CloseSubject | subjects/services.py:223-232 | The answer is true iff the caller has rows for the subject and all of them are graded. If false, nothing changes. If true, exactly that subject's rows are closed. |
| SubjectsServices.CloseSubjectWellFormed | subjects/services.py:231 | Closing keeps the database well formed. |
| SubjectsServices.CloseSubjectKeepsGpa | subjects/services.py:231 | Closing never changes any student's GPA. |
| SubjectsServices.AssignInstructor | subjects/services.py:252-259 | The assignment succeeds iff the subject exists and the user holds the instructor role. On success only that subject's instructor changes. |
| SubjectsServices.AssignInstructorWellFormed | subjects/services.py:252-259 | Assignment keeps the database well formed. |
| AccountsServices.AssignRole | accounts/services.py:35-45 | The call fails, changing nothing, iff the user or the role is missing. On success the user holds the named role. A Student or Instructor profile is added only when the name asks for it and none exists. |
| AccountsServices.AssignRoleKeepsProfiles | accounts/services.py:40-43 | No role change removes a profile or alters its limit. |
| AccountsServices.StudentInstructorStudent | accounts/services.py:40-43 | Going student, then instructor, then student reuses the first Student profile and leaves both profiles present. |
| AccountsServices.AssignRoleWellFormed | accounts/services.py:35-45 | Role assignment keeps the database well formed. |
| AccountsServices.UserStatistics | accounts/services.py:72-119 | Each role count is the number of users holding that role. Active students are the students with at least one row. Inactive is total minus active, which is exactly the number of students without rows. The role counts plus role-less users equal all users. |
| AccountsServices.RolePartition | accounts/services.py:72-74 | Every user is counted under exactly one role, or has none. |
| AccountsServices.SubjectStatistics | accounts/services.py:76-112 | Total, staffed and unstaffed are the subject counts, and staffed plus unstaffed is the total. The professor count is the number of distinct assigned instructors, which is 0 iff no subject is staffed. The average is the total over that count, or 0. |
| AccountsServices.StaffedSplit | accounts/services.py:76-78 | Every subject is either staffed or unstaffed, so the two counts add up to the total. |
| AccountsServices.StaffedIffAssigned | accounts/services.py:108-112 | Some instructor is counted iff some subject is staffed, so the average divides by a positive count exactly when a subject is staffed. |
| AccountsServices.SharedInstructorCountedOnce | accounts/services.py:108-110 | Two subjects taught by one instructor count as two staffed subjects but one professor. |
| AccountsServices.StateCountsSum | accounts/services.py:80-84 | The four state counts add up to the number of rows. |
| AccountsServices.EnrollmentStatistics | accounts/services.py:80-84 | The total is the number of rows and each state field counts the rows in that state. The four add up to the total. |
| AccountsServices.DecidedCounts | accounts/services.py:86-91 | The approved-or-failed population splits into the approved and the failed rows of the table. |
| AccountsServices.RatesFromCounts | accounts/services.py:89-94 | Both rates are 0 when nothing is decided. Otherwise they add up to 100, and each is its count's share of 100. |
| AccountsServices.PassRates | accounts/services.py:86-94 | Rates computed within the decided population equal the rates of the table's approved and failed counts. |
| AccountsServices.UndecidedRowKeepsRates | accounts/services.py:86-87 | An enrolled or closed row never changes the rates. |
| AccountsServices.RatesExample | accounts/services.py:89-91 | Ten approved and five failed rows give rates of 200/3 and 100/3. |
| AccountsServices.SystemAverageGrade | accounts/services.py:96-97 | The average is the sum of every recorded grade in the table divided by their number, 0 with no grades, and in [0, 5.0] when the grades are. |
| AccountsServices.Ascending | accounts/services.py:122 | Student ids are listed exactly once each, in increasing order. |
| AccountsServices.StudentGpas | accounts/services.py:121-127 | There is one GPA per listed student with a grade, in list order. The k-th is the GPA of the k-th such student. |
| AccountsServices.StudentGpasInRange | accounts/services.py:121-127 | With every grade in range, every listed GPA lies in [0, 5.0]. |
| AccountsServices.StudentGpasEmpty | accounts/services.py:121-129 | No GPA is listed iff no listed student has a grade. |
| AccountsServices.AverageStudentGpa | accounts/services.py:121-129 | The average is the sum of the per-student GPAs over the number of students with a grade, taken over all students in ascending id order, a choice the mean does not depend on. It is 0 when no student has a grade, and in [0, 5.0] when the grades are. |
| AccountsServices.PerformanceStatistics | accounts/services.py:86-129 | The rates are those of the table's decided rows. The two averages are the system average grade and the average student GPA, and both lie in [0, 5.0] when the grades do. |
| AccountsServices.BucketsPartition | accounts/services.py:100-106 | A grade in [0, 5.0] falls in exactly one of the five buckets. |
| AccountsServices.BucketsCoverGraded | accounts/services.py:99-106 | With grades in range, the bucket counts add up to the number of graded rows. |
| AccountsServices.CountGradedAppend | accounts/services.py:99-106 | Appending a row raises a bucket count by one exactly when the row is graded and its grade falls in that bucket. |
| AccountsServices.GradeDistribution | accounts/services.py:99-106 | Each bucket counts the graded rows whose grade falls in its range. With grades in range the five add up to the graded rows. |
| AccountsServices.TopGradeInLastBucket | accounts/services.py:105 | Adding a 5.0 to any table raises the last bucket by one and leaves the other four alone. |
| AccountsServices.AdminStatistics | accounts/services.py:72-162 | The report is made of the five blocks above. Inactive is total minus active, staffed plus unstaffed is the total, and the state counts sum to the rows. Both rates are 0 when nothing is decided and otherwise sum to 100. The distribution sums to the graded rows, and the professor count is reported twice, equal. |
| Signals.PostSave | accounts/signals.py:7-13 | A save that is not a creation, or of a role-less user, changes nothing. Creating a student or instructor adds the matching profile. Any role adds one "welcome" notification. A duplicate profile is an integrity error. |
| Signals.CreateUser | accounts/signals.py:8-13 | A role missing from the roles table breaks the role foreign key: IntegrityError, nothing written. Otherwise the new user keeps the given role, or the null role. A profile is provisioned only for a student or instructor role. A welcome notification is added iff there is a role. |
| Signals.SaveUser | accounts/signals.py:8 | A role missing from the roles table breaks the role foreign key: IntegrityError. Otherwise saving an existing user stores the row and nothing else. |
| Signals.CreateUserWellFormed | accounts/signals.py:8-13 | An accepted user creation keeps the database well formed. |
| Permissions.IsAdmin | common/permissions.py:31-34 | Granted iff the caller is authenticated and holds the admin role. |
| Permissions.IsInstructor | common/permissions.py:52-55 | Granted iff the caller is authenticated and holds the instructor role. |
| Permissions.IsStudent | common/permissions.py:73-76 | Granted iff the caller is authenticated and holds the student role. |
| Permissions.AtMostOnePermission | common/permissions.py:31-76 | No caller passes two of the three. |
| Permissions.NoRoleNoPermission | common/permissions.py:31-76 | An anonymous or role-less caller passes none. |
| Permissions.RoleGrantsOnePermission | common/permissions.py:31-76 | A caller with a role passes one of them. |
| Decorators.ValidatePrerequisites | common/decorators.py:60-65 | The view runs, and its answer is returned unchanged, iff every enrollment rule passes. Otherwise the answer is a 400 whose detail is the reason text, never "ok". A missing subject raises. |
| Decorators.EnrollRequest | common/decorators.py:60-65 | An unknown subject raises NotFound exactly when the caller is a student. Otherwise the request passes the guard iff the enrollment check allows it, and a request that passes is answered by a successful enrollment of a student. |
| Decorators.CreditLoadAppend | subjects/services.py:49-50 | Appending a row adds exactly that row's enrolled credits to the load. |
| Decorators.CreditLoadPointwise | subjects/services.py:49-50 | Rows that each weigh no more give no more load. |
| Decorators.GuardedEnrollKeepsCredits | common/decorators.py:62-65 | Guarded enrollment keeps every user's enrolled credits within their limit. |
| Decorators.GradeKeepsCredits | subjects/services.py:190-193 | Grading keeps every user within their credit limit. |
| Decorators.CloseSubjectKeepsCredits | subjects/services.py:231 | Closing keeps every user within their credit limit. |
| Decorators.AssignRoleKeepsCredits | accounts/services.py:40-43 | A role change keeps every user within their credit limit. |
| Decorators.AssignInstructorKeepsCredits | subjects/services.py:257-258 | Assigning an instructor keeps every user within their credit limit. |

## Left out

- The HTTP layer is not modelled: views, serializers, routing, JWT, passwords and the timing middleware. The grade view only re-checks the range and maps exceptions to 400.
- SubjectsServices.Grade: takes the grade as integer tenths already rounded, because the view's float and its `round(Decimal(value), 1)` are floating-point conversions.
- AccountsServices.PassRates: the rates are exact rationals, without the float division and `round(..., 2)` of the dashboard. The same holds for `SystemAverageGrade`, `AverageStudentGpa` and the per-instructor average in `SubjectStatistics`.
- SubjectsServices.Gpa: the GPA is an exact real, while the source's `Avg` over a `DecimalField` returns a `Decimal` at the backend's precision.
- Store.InsertEnrollment: a grade too wide for its column is one `DataError` raised before any constraint check. Whether Django reports it as `decimal.InvalidOperation` or as the backend's own data error depends on the database backend, which is not modelled.
- Decorators.ValidatePrerequisites: a request without `subject_id` is modelled as a request for an unknown subject, because `Subject.objects.get(id=None)` raises `DoesNotExist` like an unknown id.
- SubjectsServices.CanEnroll: requires the user to exist, because the source is handed a loaded user object.
- Decorators.GuardedEnrollKeepsCredits: the credit invariant is proved for guarded enrollment, grading, closing, role assignment and instructor assignment. It is not proved for the deletes or for direct admin edits of a profile's limit. Deletes only remove rows. Admin edits go through the serializers, which are outside the model.
- Store.NextId: stands for the database's autoincrement key. It only promises a key larger than every key in use, not the concrete value.
- Notifications.Purge: the clock is a parameter. Celery scheduling and time zones are not modelled.
- The CSV reports (`reports/views.py`) are not modelled. They are a rendering layer over float averages, and their instructor report looks up a related name that does not exist.
- The weekly digest task (`subjects/tasks.py`) is not modelled. It formats Decimal averages into message text.
- The seed migrations and `fix_student.py` are not modelled, because they are data scripts.
- Concurrency is not modelled. Every operation is atomic and sequential, so races between simultaneous enroll, grade and close requests and the database's transaction semantics are out.
- The Instructor profile's limit is stored and provisioned but never enforced, as in the source.

=== FILE: accounts_models.dfy ===
/**
 The account entities: roles, users and the two optional profile rows
 (Student, Instructor) that carry a per-term credit limit.
 */
module AccountsModels {
  import opened Base

  type UserId = nat

  /** The three seeded role names. The `Role` table stores them as strings. */
  datatype RoleName = Admin | Instructor | Student

  /** The stored name of a role. */
  function RoleText(r: RoleName): string
  {
    match r
    case Admin => "admin"
    case Instructor => "instructor"
    case Student => "student"
  }

  /** Looks a role up by its stored name; `None` when no role has that name. */
  function ParseRole(name: string): (r: Option<RoleName>)
    ensures r.Some? ==> RoleText(r.value) == name
    ensures r.None? ==> forall x: RoleName :: RoleText(x) != name
  {
    if name == "admin" then Some(Admin)
    else if name == "instructor" then Some(Instructor)
    else if name == "student" then Some(Student)
    else None
  }

  /** Role names are unique: the stored name determines the role. */
  lemma RoleTextInjective(a: RoleName, b: RoleName)
    ensures RoleText(a) == RoleText(b) <==> a == b
  {
    if a != b {
      assert RoleText(a)[0] != RoleText(b)[0];
    }
  }

  /** Looking a role up by its own name finds it. */
  lemma ParseRoleText(r: RoleName)
    ensures ParseRole(RoleText(r)) == Some(r)
  {
    RoleTextInjective(r, Admin);
    RoleTextInjective(r, Instructor);
  }

  /** Default `max_credits_per_term` of a new Student profile. */
  const StudentDefaultMaxCredits: nat := 16

  /** Default `max_credits_per_term` of a new Instructor profile. */
  const InstructorDefaultMaxCredits: nat := 20

  /**
   A user row. `role` is the nullable foreign key to `Role`; `studentMax` and
   `instructorMax` stand for the one-to-one Student and Instructor profile rows
   (absent, or present with their `max_credits_per_term`). Being fields of the
   user, there is at most one profile of each kind per user.
   */
  datatype User = User(role: Option<RoleName>, studentMax: Option<nat>, instructorMax: Option<nat>)

  /** A user as `create_user` builds it before any profile exists. */
  function NewUser(role: Option<RoleName>): (u: User)
    ensures u.role == role
    ensures u.studentMax.None? && u.instructorMax.None?
  {
    User(role, None, None)
  }

  /** A fresh Student profile's limit, or the existing one. */
  function WithStudentProfile(u: User): (v: User)
    ensures v.role == u.role && v.instructorMax == u.instructorMax
    ensures v.studentMax.Some?
    ensures u.studentMax.Some? ==> v == u
    ensures u.studentMax.None? ==> v.studentMax == Some(StudentDefaultMaxCredits)
  {
    if u.studentMax.Some? then u else u.(studentMax := Some(StudentDefaultMaxCredits))
  }

  /** A fresh Instructor profile's limit, or the existing one. */
  function WithInstructorProfile(u: User): (v: User)
    ensures v.role == u.role && v.studentMax == u.studentMax
    ensures v.instructorMax.Some?
    ensures u.instructorMax.Some? ==> v == u
    ensures u.instructorMax.None? ==> v.instructorMax == Some(InstructorDefaultMaxCredits)
  {
    if u.instructorMax.Some? then u else u.(instructorMax := Some(InstructorDefaultMaxCredits))
  }

  /**
   The credit limit the enrollment rule applies: the Student profile's
   `max_credits_per_term`, or 0 when the user has no Student profile.
   */
  function StudentLimit(u: User): (n: nat)
    ensures u.studentMax.None? ==> n == 0
    ensures u.studentMax.Some? ==> n == u.studentMax.value
  {
    u.studentMax.GetOr(0)
  }
}

=== FILE: accounts_services.dfy ===
/**
 Role assignment and the administrator's statistics. Rates and averages are
 exact rationals (the two-decimal rounding of the dashboard is not modelled);
 grades and grade averages are in tenths.
 */
module AccountsServices {
  import opened Base
  import opened AccountsModels
  import opened SubjectsModels
  import opened Store
  import opened SubjectsServices

  // ---------------------------------------------------------------------------
  // Role assignment
  // ---------------------------------------------------------------------------

  /**
   Sets a user's role by name. The user and the role are both looked up before
   anything is written, so a failed lookup changes nothing. A student or
   instructor role provisions the matching profile when it is missing; no
   profile is ever removed.
   */
  function AssignRole(db: Db, uid: UserId, name: string): (r: Result<Db>)
    ensures r.Err? <==> uid !in db.users || ParseRole(name).None? || ParseRole(name).value !in db.roles
    ensures r.Err? ==> r.error == NotFound
    ensures r.Ok? ==>
      && r.value.users.Keys == db.users.Keys
      && (forall v :: v in db.users && v != uid ==> r.value.users[v] == db.users[v])
      && r.value.users[uid].role.Some? && RoleText(r.value.users[uid].role.value) == name
      && r.value.users[uid].studentMax ==
           (if name == "student" && db.users[uid].studentMax.None? then Some(StudentDefaultMaxCredits)
            else db.users[uid].studentMax)
      && r.value.users[uid].instructorMax ==
           (if name == "instructor" && db.users[uid].instructorMax.None? then Some(InstructorDefaultMaxCredits)
            else db.users[uid].instructorMax)
      && r.value.subjects == db.subjects && r.value.enrollments == db.enrollments
      && r.value.notifications == db.notifications && r.value.roles == db.roles
  {
    if uid !in db.users then Err(NotFound)
    else match ParseRole(name)
      case None => Err(NotFound)
      case Some(role) =>
        if role !in db.roles then Err(NotFound)
        else
          var user := db.users[uid].(role := Some(role));
          var withStudent := if name == "student" then WithStudentProfile(user) else user;
          var withBoth := if name == "instructor" then WithInstructorProfile(withStudent) else withStudent;
          Ok(db.(users := db.users[uid := withBoth]))
  }

  /** Role changes never remove a profile, nor change an existing profile's limit. */
  lemma AssignRoleKeepsProfiles(db: Db, uid: UserId, name: string)
    requires AssignRole(db, uid, name).Ok?
    ensures db.users[uid].studentMax.Some? ==>
      AssignRole(db, uid, name).value.users[uid].studentMax == db.users[uid].studentMax
    ensures db.users[uid].instructorMax.Some? ==>
      AssignRole(db, uid, name).value.users[uid].instructorMax == db.users[uid].instructorMax
  {
  }

  /**
   Student to instructor and back: the Student profile survives the detour and
   is reused, and the user ends up holding both profiles.
   */
  lemma StudentInstructorStudent(db: Db, uid: UserId)
    requires uid in db.users && Student in db.roles && Instructor in db.roles
    requires db.users[uid].studentMax.Some?
    ensures AssignRole(db, uid, "instructor").Ok?
    ensures AssignRole(AssignRole(db, uid, "instructor").value, uid, "student").Ok?
    ensures var final := AssignRole(AssignRole(db, uid, "instructor").value, uid, "student").value;
      && final.users[uid].role == Some(Student)
      && final.users[uid].studentMax == db.users[uid].studentMax
      && final.users[uid].instructorMax.Some?
  {
    ParseRoleText(Instructor);
    ParseRoleText(Student);
    var mid := AssignRole(db, uid, "instructor").value;
    var final := AssignRole(mid, uid, "student").value;
    RoleTextInjective(final.users[uid].role.value, Student);
  }

  lemma AssignRoleWellFormed(db: Db, uid: UserId, name: string)
    requires WellFormed(db)
    requires AssignRole(db, uid, name).Ok?
    ensures WellFormed(AssignRole(db, uid, name).value)
  {
    ParseRoleText(AssignRole(db, uid, name).value.users[uid].role.value);
  }

  // ---------------------------------------------------------------------------
  // Statistics: users
  // ---------------------------------------------------------------------------

  function UsersWithRole(db: Db, role: RoleName): set<UserId>
  {
    set u | u in db.users && db.users[u].role == Some(role)
  }

  function UsersWithoutRole(db: Db): set<UserId>
  {
    set u | u in db.users && db.users[u].role.None?
  }

  /** The user has at least one enrollment row, in any state. */
  predicate HasRows(db: Db, u: UserId)
  {
    exists i :: 0 <= i < |db.enrollments| && db.enrollments[i].student == u
  }

  /** Students holding at least one enrollment row. */
  function ActiveStudents(db: Db): set<UserId>
  {
    set u | u in db.users && db.users[u].role == Some(Student) && HasRows(db, u)
  }

  /** Students holding no enrollment row at all. */
  function InactiveStudents(db: Db): set<UserId>
  {
    set u | u in db.users && db.users[u].role == Some(Student) && !HasRows(db, u)
  }

  datatype UserStats = UserStats(
    totalStudents: nat,
    totalInstructors: nat,
    totalAdmins: nat,
    activeStudents: nat,
    inactiveStudents: int)

  /**
   User counts per role. Active students hold at least one enrollment row; the
   inactive count is the difference, which is exactly the number of students
   without rows.
   */
  function UserStatistics(db: Db): (s: UserStats)
    ensures s.totalStudents == |UsersWithRole(db, Student)|
    ensures s.totalInstructors == |UsersWithRole(db, Instructor)|
    ensures s.totalAdmins == |UsersWithRole(db, Admin)|
    ensures s.activeStudents == |ActiveStudents(db)| <= s.totalStudents
    ensures s.inactiveStudents == s.totalStudents - s.activeStudents >= 0
    ensures s.inactiveStudents == |InactiveStudents(db)|
    ensures s.totalStudents + s.totalInstructors + s.totalAdmins + |UsersWithoutRole(db)| == |db.users|
  {
    var students := UsersWithRole(db, Student);
    var active := ActiveStudents(db);
    var inactive := InactiveStudents(db);
    assert students == active + inactive && active !! inactive;
    assert |students| == |active| + |inactive|;
    RolePartition(db);
    UserStats(|students|, |UsersWithRole(db, Instructor)|, |UsersWithRole(db, Admin)|, |active|, |students| - |active|)
  }

  /** Every user is a student, an instructor, an admin, or holds no role. */
  lemma RolePartition(db: Db)
    ensures |UsersWithRole(db, Student)| + |UsersWithRole(db, Instructor)| + |UsersWithRole(db, Admin)|
          + |UsersWithoutRole(db)| == |db.users|
  {
    var s := UsersWithRole(db, Student);
    var i := UsersWithRole(db, Instructor);
    var a := UsersWithRole(db, Admin);
    var n := UsersWithoutRole(db);
    forall u | u in db.users
      ensures u in s + i + a + n
    {
      match db.users[u].role
      case None =>
      case Some(Student) => assert u in s;
      case Some(Instructor) => assert u in i;
      case Some(Admin) => assert u in a;
    }
    assert db.users.Keys == s + i + a + n;
    assert s !! i && (s + i) !! a && (s + i + a) !! n;
    assert |s + i| == |s| + |i|;
    assert |s + i + a| == |s + i| + |a|;
    assert |s + i + a + n| == |s + i + a| + |n|;
  }

  // ---------------------------------------------------------------------------
  // Statistics: subjects
  // ---------------------------------------------------------------------------

  datatype SubjectStats = SubjectStats(
    totalSubjects: nat,
    withInstructor: nat,
    withoutInstructor: int,
    avgPerInstructor: real,
    professorsWithAssignments: nat)

  /** Subjects with an assigned instructor. */
  function StaffedSubjects(db: Db): set<SubjectId>
  {
    set k | k in db.subjects && db.subjects[k].instructor.Some?
  }

  /** Subjects whose instructor is null. */
  function UnstaffedSubjects(db: Db): set<SubjectId>
  {
    set k | k in db.subjects && db.subjects[k].instructor.None?
  }

  /** The distinct users staffed to at least one subject. */
  function AssignedInstructors(db: Db): set<UserId>
  {
    set s | s in db.subjects && db.subjects[s].instructor.Some? :: db.subjects[s].instructor.value
  }

  /**
   Subject counts. The subjects without an instructor are counted as the
   difference, which equals the number with a null instructor; the average
   load divides by the distinct staffed instructors, 0 when there are none.
   */
  function SubjectStatistics(db: Db): (s: SubjectStats)
    ensures s.totalSubjects == |db.subjects|
    ensures s.withInstructor == |StaffedSubjects(db)|
    ensures s.withoutInstructor == |UnstaffedSubjects(db)|
    ensures s.withInstructor + s.withoutInstructor == s.totalSubjects
    ensures s.professorsWithAssignments == |AssignedInstructors(db)|
    ensures s.professorsWithAssignments == 0 <==> s.withInstructor == 0
    ensures s.professorsWithAssignments == 0 ==> s.avgPerInstructor == 0.0
    ensures s.professorsWithAssignments > 0 ==>
      s.avgPerInstructor == (s.totalSubjects as real) / (s.professorsWithAssignments as real)
  {
    var total := |db.subjects|;
    var profs := AssignedInstructors(db);
    StaffedSplit(db);
    StaffedIffAssigned(db);
    var avg := if |profs| > 0 then (total as real) / (|profs| as real) else 0.0;
    SubjectStats(total, |StaffedSubjects(db)|, total - |StaffedSubjects(db)|, avg, |profs|)
  }

  /** Every subject is either staffed or not. */
  lemma StaffedSplit(db: Db)
    ensures |StaffedSubjects(db)| + |UnstaffedSubjects(db)| == |db.subjects|
  {
    var staffed := StaffedSubjects(db);
    var unstaffed := UnstaffedSubjects(db);
    assert db.subjects.Keys == staffed + unstaffed;
    assert staffed !! unstaffed;
  }

  /** Some instructor is assigned iff some subject is staffed. */
  lemma StaffedIffAssigned(db: Db)
    ensures |AssignedInstructors(db)| == 0 <==> |StaffedSubjects(db)| == 0
  {
    if StaffedSubjects(db) != {} {
      var k :| k in StaffedSubjects(db);
      assert db.subjects[k].instructor.value in AssignedInstructors(db);
    }
    if AssignedInstructors(db) != {} {
      var v :| v in AssignedInstructors(db);
      var k :| k in db.subjects && db.subjects[k].instructor.Some? && db.subjects[k].instructor.value == v;
      assert k in StaffedSubjects(db);
    }
  }

  /** Two subjects taught by one instructor count that instructor once. */
  lemma SharedInstructorCountedOnce(db: Db, a: SubjectId, b: SubjectId, iu: UserId)
    requires a in db.subjects && b in db.subjects && a != b
    requires db.subjects[a].instructor == Some(iu) && db.subjects[b].instructor == Some(iu)
    requires forall k :: k in db.subjects && k != a && k != b ==> db.subjects[k].instructor.None?
    ensures SubjectStatistics(db).withInstructor == 2
    ensures SubjectStatistics(db).professorsWithAssignments == 1
  {
    assert StaffedSubjects(db) == {a, b};
    assert AssignedInstructors(db) == {iu};
  }

  // ---------------------------------------------------------------------------
  // Statistics: enrollments
  // ---------------------------------------------------------------------------

  function CountState(rows: seq<Enrollment>, st: State): nat
  {
    |Filter(rows, (e: Enrollment) => e.state == st)|
  }

  /** The four state counts add up to the number of rows. */
  lemma {:induction false} StateCountsSum(rows: seq<Enrollment>)
    ensures CountState(rows, Enrolled) + CountState(rows, Approved) + CountState(rows, Failed)
          + CountState(rows, Closed) == |rows|
    decreases |rows|
  {
    if rows != [] {
      StateCountsSum(rows[1..]);
    }
  }

  datatype EnrollmentStats = EnrollmentStats(
    total: nat,
    enrolled: nat,
    approved: nat,
    failed: nat,
    closed: nat)

  /** Row counts: the whole table and each state. */
  function EnrollmentStatistics(db: Db): (s: EnrollmentStats)
    ensures s.total == |db.enrollments|
    ensures s.enrolled == CountState(db.enrollments, Enrolled)
    ensures s.approved == CountState(db.enrollments, Approved)
    ensures s.failed == CountState(db.enrollments, Failed)
    ensures s.closed == CountState(db.enrollments, Closed)
    ensures s.enrolled + s.approved + s.failed + s.closed == s.total
  {
    StateCountsSum(db.enrollments);
    EnrollmentStats(
      |db.enrollments|,
      CountState(db.enrollments, Enrolled),
      CountState(db.enrollments, Approved),
      CountState(db.enrollments, Failed),
      CountState(db.enrollments, Closed))
  }

  // ---------------------------------------------------------------------------
  // Statistics: academic performance
  // ---------------------------------------------------------------------------

  /** A row whose grading decided it: approved or failed (neither enrolled nor closed). */
  predicate Decided(e: Enrollment)
  {
    e.state == Approved || e.state == Failed
  }

  predicate IsApproved(e: Enrollment) { e.state == Approved }

  predicate IsFailed(e: Enrollment) { e.state == Failed }

  /** The decided rows split into approved and failed. */
  lemma {:induction false} DecidedCounts(rows: seq<Enrollment>)
    ensures |Filter(rows, Decided)| == CountState(rows, Approved) + CountState(rows, Failed)
    ensures |Filter(Filter(rows, Decided), IsApproved)| == CountState(rows, Approved)
    ensures |Filter(Filter(rows, Decided), IsFailed)| == CountState(rows, Failed)
    decreases |rows|
  {
    if rows != [] {
      DecidedCounts(rows[1..]);
    }
  }

  datatype Rates = Rates(approval: real, failure: real)

  /**
   Approval and failure rates, in percent, from the number of approved and
   failed rows. Both are 0 when there are none; otherwise they add up to 100.
   */
  function RatesFromCounts(approved: nat, failed: nat): (r: Rates)
    ensures approved + failed == 0 ==> r == Rates(0.0, 0.0)
    ensures approved + failed > 0 ==>
      && r.approval + r.failure == 100.0
      && r.approval * ((approved + failed) as real) == 100.0 * (approved as real)
      && r.failure * ((approved + failed) as real) == 100.0 * (failed as real)
  {
    var total := approved + failed;
    if total > 0 then
      RateSum(approved as real, failed as real, total as real);
      Rates((approved as real) / (total as real) * 100.0, (failed as real) / (total as real) * 100.0)
    else
      Rates(0.0, 0.0)
  }

  lemma RateSum(a: real, f: real, n: real)
    requires n > 0.0 && a + f == n
    ensures a / n * 100.0 + f / n * 100.0 == 100.0
    ensures a / n * 100.0 * n == 100.0 * a
    ensures f / n * 100.0 * n == 100.0 * f
  {
  }

  /**
   The dashboard's rates: the population is the decided rows only, counted
   within it; this agrees with the whole table's approved and failed counts.
   */
  function PassRates(rows: seq<Enrollment>): (r: Rates)
    ensures r == RatesFromCounts(CountState(rows, Approved), CountState(rows, Failed))
  {
    var decided := Filter(rows, Decided);
    DecidedCounts(rows);
    RatesFromCounts(|Filter(decided, IsApproved)|, |Filter(decided, IsFailed)|)
  }

  /** Enrolled and closed rows never reach the denominator: adding one leaves the rates alone. */
  lemma UndecidedRowKeepsRates(rows: seq<Enrollment>, e: Enrollment)
    requires e.state == Enrolled || e.state == Closed
    ensures PassRates(rows + [e]) == PassRates(rows)
  {
    var p := (x: Enrollment) => x.state == Approved;
    var q := (x: Enrollment) => x.state == Failed;
    FilterConcat(rows, [e], p);
    FilterConcat(rows, [e], q);
    assert CountState(rows + [e], Approved) == CountState(rows, Approved);
    assert CountState(rows + [e], Failed) == CountState(rows, Failed);
  }

  /** Ten approved and five failed rows give rates of 200/3 and 100/3 percent. */
  lemma RatesExample(rows: seq<Enrollment>)
    requires CountState(rows, Approved) == 10 && CountState(rows, Failed) == 5
    ensures PassRates(rows) == Rates(200.0 / 3.0, 100.0 / 3.0)
  {
    assert RatesFromCounts(10, 5) == Rates(10.0 / 15.0 * 100.0, 5.0 / 15.0 * 100.0);
  }

  /** The system-wide average grade in tenths: the sum of all grades over their number, 0 with none. */
  function SystemAverageGrade(rows: seq<Enrollment>): (r: real)
    ensures var g := AllGrades(rows);
      r == if g == [] then 0.0 else (Sum(g) as real) / (|g| as real)
    ensures AllGradesInRange(rows) ==> 0.0 <= r <= MaxGrade as real
  {
    var g := AllGrades(rows);
    if g != [] && AllGradesInRange(rows) then
      MeanBounds(g, 0, MaxGrade);
      Mean(g)
    else
      Mean(g)
  }

  /** A finite, non-empty set of ids has a least element. */
  lemma {:induction false} LeastExists(s: set<nat>)
    requires s != {}
    ensures exists m :: IsLeast(s, m)
    decreases |s|
  {
    var y :| y in s;
    if s != {y} {
      LeastExists(s - {y});
      var m :| IsLeast(s - {y}, m);
      var least := if y < m then y else m;
      forall x | x in s
        ensures least <= x
      {
        if x != y {
          assert x in s - {y};
        }
      }
      assert IsLeast(s, least);
    } else {
      assert IsLeast(s, y);
    }
  }

  predicate IsLeast(s: set<nat>, m: nat)
  {
    m in s && forall x :: x in s ==> m <= x
  }

  /** The ids of a set in ascending order. */
  function Ascending(s: set<nat>): (r: seq<nat>)
    ensures forall x :: x in r <==> x in s
    ensures forall i, j :: 0 <= i < j < |r| ==> r[i] < r[j]
    decreases |s|
  {
    if s == {} then []
    else
      LeastExists(s);
      assert forall a, b :: IsLeast(s, a) && IsLeast(s, b) ==> a == b;
      var m :| IsLeast(s, m);
      var rest := Ascending(s - {m});
      assert forall i :: 0 <= i < |rest| ==> m < rest[i];
      [m] + rest
  }

  /** The listed students who hold at least one grade, in list order. */
  function GradedStudents(db: Db, students: seq<UserId>): seq<UserId>
  {
    Filter(students, (v: UserId) => StudentGrades(db.enrollments, v) != [])
  }

  /** One GPA per listed student with at least one grade: the k-th is the GPA of the k-th such student. */
  function StudentGpas(db: Db, students: seq<UserId>): (g: seq<real>)
    ensures |g| == |GradedStudents(db, students)|
    ensures forall k :: 0 <= k < |g| ==> g[k] == Gpa(db, GradedStudents(db, students)[k])
  {
    if students == [] then []
    else
      var rest := StudentGpas(db, students[1..]);
      if StudentGrades(db.enrollments, students[0]) != [] then
        assert GradedStudents(db, students) == [students[0]] + GradedStudents(db, students[1..]);
        [Gpa(db, students[0])] + rest
      else
        rest
  }

  /** With every grade in range, every listed GPA lies in [0, 5.0]. */
  lemma StudentGpasInRange(db: Db, students: seq<UserId>)
    requires AllGradesInRange(db.enrollments)
    ensures forall k :: 0 <= k < |StudentGpas(db, students)| ==> 0.0 <= StudentGpas(db, students)[k] <= MaxGrade as real
  {
    var g := StudentGpas(db, students);
    forall k | 0 <= k < |g|
      ensures 0.0 <= g[k] <= MaxGrade as real
    {
      var v := GradedStudents(db, students)[k];
      assert GradesInRange(db.enrollments, v);
    }
  }

  /** No GPA is listed iff no listed student has a grade. */
  lemma StudentGpasEmpty(db: Db, students: seq<UserId>)
    ensures StudentGpas(db, students) == [] <==>
      forall k :: 0 <= k < |students| ==> StudentGrades(db.enrollments, students[k]) == []
  {
    var graded := GradedStudents(db, students);
    if graded != [] {
      assert graded[0] in students;
    }
  }

  /**
   The per-student GPAs the dashboard averages, students taken in ascending id
   order: the query fixes no order, and the mean does not depend on it.
   */
  function DashboardGpas(db: Db): seq<real>
  {
    StudentGpas(db, Ascending(UsersWithRole(db, Student)))
  }

  /**
   The average of per-student GPAs, over the students with at least one grade:
   a GPA of GPAs, not a flat average of grades. 0 when no student has a grade.
   */
  function AverageStudentGpa(db: Db): (r: real)
    ensures var gpas := DashboardGpas(db);
      r == if gpas == [] then 0.0 else RealSum(gpas) / (|gpas| as real)
    ensures (forall u :: u in UsersWithRole(db, Student) ==> StudentGrades(db.enrollments, u) == []) ==> r == 0.0
    ensures AllGradesInRange(db.enrollments) ==> 0.0 <= r <= MaxGrade as real
  {
    var gpas := DashboardGpas(db);
    StudentGpasEmpty(db, Ascending(UsersWithRole(db, Student)));
    if AllGradesInRange(db.enrollments) then
      StudentGpasInRange(db, Ascending(UsersWithRole(db, Student)));
      RealMeanBounds(gpas, 0.0, MaxGrade as real);
      RealMean(gpas)
    else
      RealMean(gpas)
  }

  datatype Performance = Performance(
    approvalRate: real,
    failureRate: real,
    systemAverageGrade: real,
    averageStudentGpa: real)

  /** The academic performance block: pass rates and the two averages. */
  function PerformanceStatistics(db: Db): (p: Performance)
    ensures Rates(p.approvalRate, p.failureRate) == PassRates(db.enrollments)
    ensures p.systemAverageGrade == SystemAverageGrade(db.enrollments)
    ensures p.averageStudentGpa == AverageStudentGpa(db)
    ensures AllGradesInRange(db.enrollments) ==>
      0.0 <= p.systemAverageGrade <= MaxGrade as real && 0.0 <= p.averageStudentGpa <= MaxGrade as real
  {
    var rates := PassRates(db.enrollments);
    Performance(rates.approval, rates.failure, SystemAverageGrade(db.enrollments), AverageStudentGpa(db))
  }

  // ---------------------------------------------------------------------------
  // Statistics: grade distribution
  // ---------------------------------------------------------------------------

  /** Graded rows whose grade satisfies `p`. */
  function CountGraded(rows: seq<Enrollment>, p: int -> bool): nat
  {
    |Filter(rows, (e: Enrollment) => e.grade.Some? && p(e.grade.value))|
  }

  function CountAnyGrade(rows: seq<Enrollment>): nat
  {
    |Filter(rows, Graded)|
  }

  /** Appending a row adds one to a count exactly when the row is graded and its grade qualifies. */
  lemma CountGradedAppend(rows: seq<Enrollment>, e: Enrollment, p: int -> bool)
    ensures CountGraded(rows + [e], p) == CountGraded(rows, p) + (if e.grade.Some? && p(e.grade.value) then 1 else 0)
  {
    var f := (x: Enrollment) => x.grade.Some? && p(x.grade.value);
    FilterConcat(rows, [e], f);
    assert [e][1..] == [];
  }

  /** The five buckets [0,1) [1,2) [2,3) [3,4) [4,5], in tenths. The first has no lower bound. */
  datatype Distribution = Distribution(b01: nat, b12: nat, b23: nat, b34: nat, b45: nat)

  predicate InB01(g: int) { g < 10 }
  predicate InB12(g: int) { 10 <= g < 20 }
  predicate InB23(g: int) { 20 <= g < 30 }
  predicate InB34(g: int) { 30 <= g < 40 }
  predicate InB45(g: int) { 40 <= g <= MaxGrade }

  /** A grade in [0, 5.0] falls in exactly one bucket; 5.0 itself in the last. */
  lemma BucketsPartition(g: int)
    requires 0 <= g <= MaxGrade
    ensures (if InB01(g) then 1 else 0) + (if InB12(g) then 1 else 0) + (if InB23(g) then 1 else 0)
          + (if InB34(g) then 1 else 0) + (if InB45(g) then 1 else 0) == 1
  {
  }

  /** The histogram of recorded grades: each bucket counts the graded rows whose grade falls in it. */
  function GradeDistribution(rows: seq<Enrollment>): (d: Distribution)
    ensures d.b01 == CountGraded(rows, InB01) && d.b12 == CountGraded(rows, InB12)
    ensures d.b23 == CountGraded(rows, InB23) && d.b34 == CountGraded(rows, InB34)
    ensures d.b45 == CountGraded(rows, InB45)
    ensures AllGradesInRange(rows) ==> d.b01 + d.b12 + d.b23 + d.b34 + d.b45 == CountAnyGrade(rows)
  {
    BucketsCoverGraded(rows);
    Distribution(
      CountGraded(rows, InB01),
      CountGraded(rows, InB12),
      CountGraded(rows, InB23),
      CountGraded(rows, InB34),
      CountGraded(rows, InB45))
  }

  lemma {:induction false} BucketsCoverGraded(rows: seq<Enrollment>)
    ensures AllGradesInRange(rows) ==>
      CountGraded(rows, InB01) + CountGraded(rows, InB12) + CountGraded(rows, InB23)
      + CountGraded(rows, InB34) + CountGraded(rows, InB45) == CountAnyGrade(rows)
    decreases |rows|
  {
    if rows != [] && AllGradesInRange(rows) {
      assert forall i :: 1 <= i < |rows| ==> rows[i] == rows[1..][i - 1];
      BucketsCoverGraded(rows[1..]);
      if rows[0].grade.Some? {
        BucketsPartition(rows[0].grade.value);
      }
    }
  }

  /** A further grade of 5.0 in any table is counted in the last bucket, and only there. */
  lemma TopGradeInLastBucket(rows: seq<Enrollment>, e: Enrollment)
    requires e.grade == Some(MaxGrade)
    ensures var d := GradeDistribution(rows);
      GradeDistribution(rows + [e]) == d.(b45 := d.b45 + 1)
  {
    CountGradedAppend(rows, e, InB01);
    CountGradedAppend(rows, e, InB12);
    CountGradedAppend(rows, e, InB23);
    CountGradedAppend(rows, e, InB34);
    CountGradedAppend(rows, e, InB45);
  }

  // ---------------------------------------------------------------------------
  // Statistics: the whole report
  // ---------------------------------------------------------------------------

  datatype Statistics = Statistics(
    users: UserStats,
    subjects: SubjectStats,
    enrollments: EnrollmentStats,
    performance: Performance,
    distribution: Distribution,
    professorsWithAssignments: nat)

  /** The administrator's dashboard, a read-only aggregation over the tables. */
  function AdminStatistics(db: Db): (s: Statistics)
    ensures s.users == UserStatistics(db) && s.subjects == SubjectStatistics(db)
    ensures s.enrollments == EnrollmentStatistics(db) && s.performance == PerformanceStatistics(db)
    ensures s.distribution == GradeDistribution(db.enrollments)
    ensures s.users.inactiveStudents == s.users.totalStudents - s.users.activeStudents >= 0
    ensures s.subjects.withInstructor + s.subjects.withoutInstructor == s.subjects.totalSubjects
    ensures s.enrollments.enrolled + s.enrollments.approved + s.enrollments.failed + s.enrollments.closed
         == s.enrollments.total
    ensures s.enrollments.approved + s.enrollments.failed == 0 ==>
      s.performance.approvalRate == 0.0 && s.performance.failureRate == 0.0
    ensures s.enrollments.approved + s.enrollments.failed > 0 ==>
      s.performance.approvalRate + s.performance.failureRate == 100.0
    ensures AllGradesInRange(db.enrollments) ==>
      s.distribution.b01 + s.distribution.b12 + s.distribution.b23 + s.distribution.b34 + s.distribution.b45
        == CountAnyGrade(db.enrollments)
    ensures s.professorsWithAssignments == s.subjects.professorsWithAssignments
  {
    var subjects := SubjectStatistics(db);
    Statistics(
      UserStatistics(db),
      subjects,
      EnrollmentStatistics(db),
      PerformanceStatistics(db),
      GradeDistribution(db.enrollments),
      subjects.professorsWithAssignments)
  }
}

=== FILE: base.dfy ===
/**
 Shared vocabulary of the model: optional values, the error kinds the services
 raise, and small sequence utilities (filtering, counting, summing, subsequences)
 that stand in for the ORM's `filter`, `count` and `aggregate` calls.
 */
module Base {

  /** A nullable value (a nullable column or a reverse one-to-one that may be absent). */
  datatype Option<T> = None | Some(value: T) {
    function GetOr(default: T): T {
      match this
      case Some(v) => v
      case None => default
    }
  }

  /** The exceptions the modelled services raise. */
  datatype Error =
    | NotFound        // `DoesNotExist` / `Http404`
    | InvalidRange    // `ValueError("invalid range")`
    | IntegrityError  // a unique or one-to-one constraint rejected an insert
    | ProtectedError  // `on_delete=PROTECT` refused a delete
    | DataError       // a value does not fit its column (a decimal with too many digits)

  /** Either a value or the exception the source raises. */
  datatype Result<T> = Ok(value: T) | Err(error: Error)

  /** The elements of `xs` satisfying `p`, in their original order. */
  function Filter<T(==)>(xs: seq<T>, p: T -> bool): (r: seq<T>)
    ensures |r| <= |xs|
    ensures forall i :: 0 <= i < |r| ==> r[i] in xs && p(r[i])
    ensures forall i :: 0 <= i < |xs| && p(xs[i]) ==> xs[i] in r
    ensures IsSubsequence(r, xs)
  {
    if xs == [] then []
    else if p(xs[0]) then [xs[0]] + Filter(xs[1..], p)
    else Filter(xs[1..], p)
  }

  /** `a` can be obtained from `b` by deleting elements (order is kept). */
  predicate IsSubsequence<T(==)>(a: seq<T>, b: seq<T>)
    decreases |b|
  {
    if a == [] then true
    else if b == [] then false
    else if a[0] == b[0] then IsSubsequence(a[1..], b[1..])
    else IsSubsequence(a, b[1..])
  }

  lemma {:induction false} FilterConcat<T>(a: seq<T>, b: seq<T>, p: T -> bool)
    ensures Filter(a + b, p) == Filter(a, p) + Filter(b, p)
    decreases |a|
  {
    if a == [] {
      assert a + b == b;
    } else {
      assert (a + b)[0] == a[0];
      assert (a + b)[1..] == a[1..] + b;
      FilterConcat(a[1..], b, p);
    }
  }

  /** Filtering keeps every element satisfying `p` with its multiplicity, and drops the rest. */
  lemma {:induction false} FilterMultiset<T>(xs: seq<T>, p: T -> bool)
    ensures forall x :: multiset(Filter(xs, p))[x] == if p(x) then multiset(xs)[x] else 0
    decreases |xs|
  {
    if xs != [] {
      FilterMultiset(xs[1..], p);
      assert xs == [xs[0]] + xs[1..];
    }
  }

  /** The sum of a sequence of integers. */
  function Sum(xs: seq<int>): int
  {
    if xs == [] then 0 else xs[0] + Sum(xs[1..])
  }

  /** A sum of values in [lo, hi] lies between |xs|*lo and |xs|*hi. */
  lemma {:induction false} SumBounds(xs: seq<int>, lo: int, hi: int)
    requires forall i :: 0 <= i < |xs| ==> lo <= xs[i] <= hi
    ensures |xs| * lo <= Sum(xs) <= |xs| * hi
    decreases |xs|
  {
    if xs != [] {
      SumBounds(xs[1..], lo, hi);
      assert |xs| * lo == lo + (|xs| - 1) * lo;
      assert |xs| * hi == hi + (|xs| - 1) * hi;
    }
  }

  /** The arithmetic mean of a sequence, 0 when it is empty. */
  function Mean(xs: seq<int>): (r: real)
    ensures xs == [] ==> r == 0.0
    ensures xs != [] ==> r * (|xs| as real) == Sum(xs) as real
  {
    if xs == [] then 0.0 else (Sum(xs) as real) / (|xs| as real)
  }

  /** The mean of values in [lo, hi] lies in [lo, hi]. */
  lemma MeanBounds(xs: seq<int>, lo: int, hi: int)
    requires xs != []
    requires forall i :: 0 <= i < |xs| ==> lo <= xs[i] <= hi
    ensures lo as real <= Mean(xs) <= hi as real
  {
    SumBounds(xs, lo, hi);
    RatioBetween(Sum(xs), |xs|, lo, hi);
  }

  /** An integer total between n*lo and n*hi, divided by n, lies between lo and hi. */
  lemma RatioBetween(s: int, n: int, lo: int, hi: int)
    requires n > 0
    requires n * lo <= s <= n * hi
    ensures lo as real <= (s as real) / (n as real) <= hi as real
  {
    var l := n * lo;
    var h := n * hi;
    CastProduct(n, lo);
    CastProduct(n, hi);
    assert l as real <= s as real <= h as real;
    QuotientBetween(s as real, n as real, lo as real, hi as real);
  }

  lemma QuotientBetween(s: real, n: real, lo: real, hi: real)
    requires n > 0.0
    requires n * lo <= s <= n * hi
    ensures lo <= s / n <= hi
  {
  }

  lemma CastProduct(a: int, b: int)
    ensures (a * b) as real == (a as real) * (b as real)
  {
  }

  /** The sum of a sequence of reals. */
  function RealSum(xs: seq<real>): real
  {
    if xs == [] then 0.0 else xs[0] + RealSum(xs[1..])
  }

  lemma {:induction false} RealSumBounds(xs: seq<real>, lo: real, hi: real)
    requires forall i :: 0 <= i < |xs| ==> lo <= xs[i] <= hi
    ensures (|xs| as real) * lo <= RealSum(xs) <= (|xs| as real) * hi
    decreases |xs|
  {
    if xs != [] {
      RealSumBounds(xs[1..], lo, hi);
    }
  }

  function RealMean(xs: seq<real>): (r: real)
    ensures xs == [] ==> r == 0.0
    ensures xs != [] ==> r * (|xs| as real) == RealSum(xs)
  {
    if xs == [] then 0.0 else RealSum(xs) / (|xs| as real)
  }

  lemma RealMeanBounds(xs: seq<real>, lo: real, hi: real)
    requires forall i :: 0 <= i < |xs| ==> lo <= xs[i] <= hi
    requires lo <= 0.0 <= hi
    ensures lo <= RealMean(xs) <= hi
  {
    if xs != [] {
      RealSumBounds(xs, lo, hi);
    }
  }

  /** No two elements of `xs` share a key (a unique column or unique_together). */
  predicate Distinct<T, K(==)>(xs: seq<T>, key: T -> K)
  {
    forall i, j :: 0 <= i < j < |xs| ==> key(xs[i]) != key(xs[j])
  }

  /** Deleting rows keeps a unique key unique. */
  lemma {:induction false} FilterDistinct<T, K>(xs: seq<T>, key: T -> K, p: T -> bool)
    requires Distinct(xs, key)
    ensures Distinct(Filter(xs, p), key)
    decreases |xs|
  {
    if xs != [] {
      var rest := Filter(xs[1..], p);
      FilterDistinct(xs[1..], key, p);
      if p(xs[0]) {
        var r := [xs[0]] + rest;
        forall i, j | 0 <= i < j < |r|
          ensures key(r[i]) != key(r[j])
        {
          if i == 0 {
            assert r[j] == rest[j - 1];
            assert rest[j - 1] in xs[1..];
            var k :| 0 <= k < |xs[1..]| && xs[1..][k] == rest[j - 1];
            assert xs[k + 1] == r[j];
          } else {
            assert r[i] == rest[i - 1] && r[j] == rest[j - 1];
          }
        }
      }
    }
  }

  /** Appending an element whose key is new keeps the keys unique. */
  lemma AppendDistinct<T, K>(xs: seq<T>, x: T, key: T -> K)
    requires Distinct(xs, key)
    requires forall i :: 0 <= i < |xs| ==> key(xs[i]) != key(x)
    ensures Distinct(xs + [x], key)
  {
    var r := xs + [x];
    forall i, j | 0 <= i < j < |r|
      ensures key(r[i]) != key(r[j])
    {
      if j == |xs| {
        assert r[i] == xs[i];
      } else {
        assert r[i] == xs[i] && r[j] == xs[j];
      }
    }
  }

  /** Updating elements in place without touching their keys keeps the keys unique. */
  lemma SameKeysDistinct<T, K>(xs: seq<T>, ys: seq<T>, key: T -> K)
    requires Distinct(xs, key)
    requires |xs| == |ys|
    requires forall i :: 0 <= i < |xs| ==> key(ys[i]) == key(xs[i])
    ensures Distinct(ys, key)
  {
  }

  /** The first position whose element satisfies `p`, if any. */
  function FindIndex<T>(xs: seq<T>, p: T -> bool): (r: Option<nat>)
    ensures r.Some? ==> r.value < |xs| && p(xs[r.value])
    ensures r.Some? ==> forall j :: 0 <= j < r.value ==> !p(xs[j])
    ensures r.None? ==> forall j :: 0 <= j < |xs| ==> !p(xs[j])
  {
    if xs == [] then None
    else if p(xs[0]) then Some(0)
    else match FindIndex(xs[1..], p)
      case None => None
      case Some(k) => Some(k + 1)
  }

  /** Nothing passes a filter no element satisfies. */
  lemma FilterNone<T>(xs: seq<T>, p: T -> bool)
    requires forall i :: 0 <= i < |xs| ==> !p(xs[i])
    ensures Filter(xs, p) == []
  {
  }
}

=== FILE: decorators.dfy ===
/**
 The enrollment guard: the eligibility check run in front of the enroll view,
 and the credit-limit invariant that guarding every enrollment maintains.
 */
module Decorators {
  import opened Base
  import opened AccountsModels
  import opened SubjectsModels
  import opened Store
  import opened SubjectsServices
  import opened AccountsServices

  /** HTTP 400. */
  const BadRequest: nat := 400

  /** What the guarded view answers: a refusal with its status and detail, or the view's own answer. */
  datatype Response<R> = Rejected(status: nat, detail: string) | Passed(result: R)

  /**
   Runs the eligibility check first. A refusal becomes a 400 whose detail is
   the reason text, and the view is not run; an allowed request gets exactly
   the view's answer. A missing subject propagates as the check's error.
   */
  function ValidatePrerequisites<R>(db: Db, u: UserId, sid: SubjectId, view: Db -> R): (r: Result<Response<R>>)
    requires u in db.users
    ensures r.Err? <==> db.users[u].role == Some(Student) && sid !in db.subjects
    ensures r.Err? ==> r.error == NotFound
    ensures r.Ok? && r.value.Passed? <==>
      && db.users[u].role == Some(Student) && sid in db.subjects && !HasBlockingRow(db, u, sid)
      && PrereqsApproved(db, u, sid)
      && EnrolledCredits(db, u) + db.subjects[sid].credits <= StudentLimit(db.users[u])
    ensures r.Ok? && r.value.Passed? ==> r.value.result == view(db)
    ensures r.Ok? && r.value.Rejected? ==>
      && r.value.status == BadRequest
      && r.value.detail != VerdictText(Allowed)
      && (r.value.detail == ReasonText(NotAuthorized) <==> db.users[u].role != Some(Student))
    ensures r.Ok? && r.value.Rejected? ==>
      && CanEnroll(db, u, sid).Ok? && CanEnroll(db, u, sid).value.Denied?
      && r.value.detail == ReasonText(CanEnroll(db, u, sid).value.reason)
  {
    match CanEnroll(db, u, sid)
    case Err(e) => Err(e)
    case Ok(Allowed) => Ok(Passed(view(db)))
    case Ok(Denied(reason)) =>
      ReasonTextsDiffer();
      Ok(Rejected(BadRequest, ReasonText(reason)))
  }

  /** The five answer texts are pairwise distinct. */
  lemma ReasonTextsDiffer()
    ensures forall a: Reason, b: Reason :: ReasonText(a) == ReasonText(b) ==> a == b
    ensures forall a: Reason :: ReasonText(a) != VerdictText(Allowed)
  {
  }

  /** The enroll endpoint: the guard wrapped around the enrollment service. */
  function EnrollRequest(db: Db, u: UserId, sid: SubjectId, now: int): (r: Result<Response<Result<(Db, Enrollment)>>>)
    requires u in db.users
    ensures r.Err? <==> db.users[u].role == Some(Student) && sid !in db.subjects
    ensures r.Err? ==> r.error == NotFound
    ensures r.Ok? ==> (r.value.Passed? <==> CanEnroll(db, u, sid) == Ok(Allowed))
    ensures r.Ok? && r.value.Passed? ==> r.value.result.Ok?
    ensures r.Ok? && r.value.Passed? ==> r.value.result == Enroll(db, u, sid, now)
    ensures r.Ok? && r.value.Passed? ==> db.users[u].role == Some(Student)
  {
    ValidatePrerequisites(db, u, sid, (d: Db) => Enroll(d, u, sid, now))
  }

  // ---------------------------------------------------------------------------
  // The credit-limit invariant
  // ---------------------------------------------------------------------------

  /** No user's enrolled credits exceed their student profile's limit (0 without a profile). */
  predicate CreditsWithinLimit(db: Db)
  {
    forall u :: u in db.users ==> EnrolledCredits(db, u) <= StudentLimit(db.users[u])
  }

  lemma {:induction false} CreditLoadAppend(subjects: map<SubjectId, Subject>, rows: seq<Enrollment>, e: Enrollment, u: UserId)
    ensures CreditLoad(subjects, rows + [e], u) == CreditLoad(subjects, rows, u) + Load(subjects, u, e)
    decreases |rows|
  {
    if rows == [] {
      assert ([] + [e])[1..] == [];
    } else {
      assert (rows + [e])[1..] == rows[1..] + [e];
      CreditLoadAppend(subjects, rows[1..], e, u);
    }
  }

  /** A table whose rows each weigh no more than their counterparts carries no more load. */
  lemma {:induction false} CreditLoadPointwise(
    s1: map<SubjectId, Subject>, a: seq<Enrollment>, s2: map<SubjectId, Subject>, b: seq<Enrollment>, u: UserId)
    requires |a| == |b|
    requires forall i :: 0 <= i < |a| ==> Load(s2, u, b[i]) <= Load(s1, u, a[i])
    ensures CreditLoad(s2, b, u) <= CreditLoad(s1, a, u)
    decreases |a|
  {
    if a != [] {
      assert forall i :: 1 <= i < |a| ==> a[1..][i - 1] == a[i] && b[1..][i - 1] == b[i];
      CreditLoadPointwise(s1, a[1..], s2, b[1..], u);
    }
  }

  /** A guarded enrollment keeps every user within their limit. */
  lemma GuardedEnrollKeepsCredits(db: Db, u: UserId, sid: SubjectId, now: int)
    requires u in db.users && CreditsWithinLimit(db)
    requires EnrollRequest(db, u, sid, now).Ok? && EnrollRequest(db, u, sid, now).value.Passed?
    ensures CreditsWithinLimit(EnrollRequest(db, u, sid, now).value.result.value.0)
  {
    var after := Enroll(db, u, sid, now).value;
    if FindPair(db.enrollments, u, sid).None? {
      var e := after.1;
      forall v | v in after.0.users
        ensures EnrolledCredits(after.0, v) <= StudentLimit(after.0.users[v])
      {
        CreditLoadAppend(db.subjects, db.enrollments, e, v);
      }
    } else {
      assert after.0 == db;
    }
  }

  /** Grading only moves rows out of the enrolled state, so loads never grow. */
  lemma GradeKeepsCredits(db: Db, instructor: UserId, eid: EnrollmentId, value: int, now: int)
    requires CreditsWithinLimit(db)
    requires Grade(db, instructor, eid, value, now).Ok?
    ensures CreditsWithinLimit(Grade(db, instructor, eid, value, now).value.0)
  {
    var after := Grade(db, instructor, eid, value, now).value.0;
    forall v | v in after.users
      ensures EnrolledCredits(after, v) <= StudentLimit(after.users[v])
    {
      CreditLoadPointwise(db.subjects, db.enrollments, after.subjects, after.enrollments, v);
    }
  }

  /** Closing a subject only moves rows to the closed state, so loads never grow. */
  lemma CloseSubjectKeepsCredits(db: Db, instructor: UserId, sid: SubjectId)
    requires CreditsWithinLimit(db)
    ensures CreditsWithinLimit(CloseSubject(db, instructor, sid).1)
  {
    var after := CloseSubject(db, instructor, sid).1;
    forall v | v in after.users
      ensures EnrolledCredits(after, v) <= StudentLimit(after.users[v])
    {
      CreditLoadPointwise(db.subjects, db.enrollments, after.subjects, after.enrollments, v);
    }
  }

  /** A role change never lowers a limit: profiles are only ever added. */
  lemma AssignRoleKeepsCredits(db: Db, uid: UserId, name: string)
    requires CreditsWithinLimit(db)
    requires AssignRole(db, uid, name).Ok?
    ensures CreditsWithinLimit(AssignRole(db, uid, name).value)
  {
  }

  /** Assigning an instructor leaves every subject's credits as they were. */
  lemma AssignInstructorKeepsCredits(db: Db, sid: SubjectId, iu: UserId)
    requires CreditsWithinLimit(db)
    requires AssignInstructor(db, sid, iu).Ok?
    ensures CreditsWithinLimit(AssignInstructor(db, sid, iu).value)
  {
    var after := AssignInstructor(db, sid, iu).value;
    forall v | v in after.users
      ensures EnrolledCredits(after, v) <= StudentLimit(after.users[v])
    {
      CreditLoadPointwise(db.subjects, db.enrollments, after.subjects, after.enrollments, v);
    }
  }
}

=== FILE: notifications.dfy ===
/**
 Notifications and the scheduled retention purge. Timestamps are integer
 seconds; the clock is the explicit `now` parameter.
 */
module Notifications {
  import opened Base
  import opened AccountsModels

  datatype Notification = Notification(
    user: UserId,
    kind: string,
    message: string,
    created: int,
    read: bool)

  /** A notification as `Notification.objects.create` stores it: unread, stamped `now`. */
  function NewNotification(user: UserId, kind: string, message: string, now: int): (n: Notification)
    ensures n.user == user && n.kind == kind && n.message == message
    ensures n.created == now && !n.read
  {
    Notification(user, kind, message, now, false)
  }

  const SecondsPerDay: int := 86400
  const RetentionDays: int := 90

  /** The cut-off of the purge: `now` minus 90 days. */
  function RetentionLimit(now: int): int
  {
    now - RetentionDays * SecondsPerDay
  }

  /** A notification the purge deletes: read, and created strictly before the cut-off. */
  predicate Expired(n: Notification, now: int)
  {
    n.read && n.created < RetentionLimit(now)
  }

  /**
   The retention purge: deletes the expired notifications and keeps the rest,
   in order and unchanged.
   */
  function Purge(ns: seq<Notification>, now: int): (r: seq<Notification>)
    ensures forall i :: 0 <= i < |r| ==> !Expired(r[i], now)
    ensures forall n :: multiset(r)[n] == if Expired(n, now) then 0 else multiset(ns)[n]
    ensures IsSubsequence(r, ns)
  {
    if ns == [] then []
    else
      assert ns == [ns[0]] + ns[1..];
      if Expired(ns[0], now) then Purge(ns[1..], now)
      else [ns[0]] + Purge(ns[1..], now)
  }

  /** Unread notifications are never deleted, however old. */
  lemma PurgeKeepsUnread(ns: seq<Notification>, now: int, n: Notification)
    requires n in ns && !n.read
    ensures n in Purge(ns, now)
  {
    assert multiset(ns)[n] > 0;
    assert multiset(Purge(ns, now))[n] > 0;
  }

  /** Read notifications created at or after the cut-off survive, the cut-off itself included. */
  lemma PurgeKeepsRecent(ns: seq<Notification>, now: int, n: Notification)
    requires n in ns && n.created >= RetentionLimit(now)
    ensures n in Purge(ns, now)
  {
    assert multiset(ns)[n] > 0;
    assert multiset(Purge(ns, now))[n] > 0;
  }

  /** Read notifications older than 90 days are all gone. */
  lemma PurgeRemovesExpired(ns: seq<Notification>, now: int, n: Notification)
    requires n.read && n.created < RetentionLimit(now)
    ensures n !in Purge(ns, now)
  {
    assert multiset(Purge(ns, now))[n] == 0;
  }

  /** A second purge with the same clock deletes nothing. */
  lemma {:induction false} PurgeIdempotent(ns: seq<Notification>, now: int)
    ensures Purge(Purge(ns, now), now) == Purge(ns, now)
    decreases |ns|
  {
    if ns != [] {
      PurgeIdempotent(ns[1..], now);
      var rest := Purge(ns[1..], now);
      if !Expired(ns[0], now) {
        assert ([ns[0]] + rest)[1..] == rest;
      }
    }
  }

  /** A sequence with nothing expired is left as it is. */
  lemma {:induction false} PurgeNothingExpired(ns: seq<Notification>, now: int)
    requires forall i :: 0 <= i < |ns| ==> !Expired(ns[i], now)
    ensures Purge(ns, now) == ns
    decreases |ns|
  {
    if ns != [] {
      PurgeNothingExpired(ns[1..], now);
      assert [ns[0]] + ns[1..] == ns;
    }
  }
}

=== FILE: permissions.dfy ===
/**
 The role-based permission classes. Each compares the name of the caller's
 role with a fixed string; an anonymous caller or a user without a role is
 refused by all three.
 */
module Permissions {
  import opened Base
  import opened AccountsModels

  /** The caller of a request: anonymous, or an authenticated user row. */
  datatype Principal = Anonymous | Authenticated(user: User)

  /** Authenticated, holding a role, and that role's stored name is `name`. */
  predicate HasRoleNamed(p: Principal, name: string)
  {
    p.Authenticated? && p.user.role.Some? && RoleText(p.user.role.value) == name
  }

  function IsAdmin(p: Principal): (b: bool)
    ensures b <==> p.Authenticated? && p.user.role == Some(Admin)
  {
    RolesByName(p);
    HasRoleNamed(p, "admin")
  }

  function IsInstructor(p: Principal): (b: bool)
    ensures b <==> p.Authenticated? && p.user.role == Some(Instructor)
  {
    RolesByName(p);
    HasRoleNamed(p, "instructor")
  }

  function IsStudent(p: Principal): (b: bool)
    ensures b <==> p.Authenticated? && p.user.role == Some(Student)
  {
    RolesByName(p);
    HasRoleNamed(p, "student")
  }

  /** Comparing stored names is the same as comparing roles. */
  lemma RolesByName(p: Principal)
    ensures HasRoleNamed(p, "admin") <==> p.Authenticated? && p.user.role == Some(Admin)
    ensures HasRoleNamed(p, "instructor") <==> p.Authenticated? && p.user.role == Some(Instructor)
    ensures HasRoleNamed(p, "student") <==> p.Authenticated? && p.user.role == Some(Student)
  {
    if p.Authenticated? && p.user.role.Some? {
      var r := p.user.role.value;
      RoleTextInjective(r, Admin);
      RoleTextInjective(r, Instructor);
      RoleTextInjective(r, Student);
    }
  }

  /** The three permissions are mutually exclusive. */
  lemma AtMostOnePermission(p: Principal)
    ensures !(IsAdmin(p) && IsInstructor(p))
    ensures !(IsAdmin(p) && IsStudent(p))
    ensures !(IsInstructor(p) && IsStudent(p))
  {
  }

  /** Without a role, or without authentication, no permission is granted. */
  lemma NoRoleNoPermission(p: Principal)
    requires p.Anonymous? || p.user.role.None?
    ensures !IsAdmin(p) && !IsInstructor(p) && !IsStudent(p)
  {
  }

  /** With a role, exactly one permission is granted. */
  lemma RoleGrantsOnePermission(p: Principal)
    requires p.Authenticated? && p.user.role.Some?
    ensures IsAdmin(p) || IsInstructor(p) || IsStudent(p)
  {
  }
}

=== FILE: signals.dfy ===
/**
 The post-save hook on users: a brand-new user with a role gets the matching
 profile and a welcome notification; saving an existing user does nothing.
 */
module Signals {
  import opened Base
  import opened AccountsModels
  import opened Notifications
  import opened Store

  /** The welcome notification of a new user. */
  function Welcome(uid: UserId, now: int): Notification
  {
    NewNotification(uid, "welcome", "User created", now)
  }

  /**
   The hook itself. It fires only for a newly created user holding a role.
   Creating a profile the user already has violates the one-to-one constraint.
   */
  function PostSave(db: Db, uid: UserId, created: bool, now: int): (r: Result<Db>)
    requires uid in db.users
    ensures !created || db.users[uid].role.None? ==> r == Ok(db)
    ensures r.Err? <==>
      && created
      && ((db.users[uid].role == Some(Student) && db.users[uid].studentMax.Some?)
       || (db.users[uid].role == Some(Instructor) && db.users[uid].instructorMax.Some?))
    ensures r.Err? ==> r.error == IntegrityError
    ensures r.Ok? && created && db.users[uid].role.Some? ==>
      && r.value.notifications == db.notifications + [Welcome(uid, now)]
      && r.value.users.Keys == db.users.Keys
      && (forall v :: v in db.users && v != uid ==> r.value.users[v] == db.users[v])
      && r.value.users[uid].role == db.users[uid].role
      && r.value.users[uid].studentMax ==
           (if db.users[uid].role == Some(Student) then Some(StudentDefaultMaxCredits) else db.users[uid].studentMax)
      && r.value.users[uid].instructorMax ==
           (if db.users[uid].role == Some(Instructor) then Some(InstructorDefaultMaxCredits) else db.users[uid].instructorMax)
      && r.value.subjects == db.subjects && r.value.enrollments == db.enrollments && r.value.roles == db.roles
  {
    var user := db.users[uid];
    if !created || user.role.None? then Ok(db)
    else
      var name := RoleText(user.role.value);
      RoleIsNamed(user.role.value);
      if name == "student" && user.studentMax.Some? then Err(IntegrityError)
      else if name == "instructor" && user.instructorMax.Some? then Err(IntegrityError)
      else
        var withStudent := if name == "student" then WithStudentProfile(user) else user;
        var withBoth := if name == "instructor" then WithInstructorProfile(withStudent) else withStudent;
        Ok(db.(users := db.users[uid := withBoth], notifications := db.notifications + [Welcome(uid, now)]))
  }

  lemma RoleIsNamed(r: RoleName)
    ensures RoleText(r) == "student" <==> r == Student
    ensures RoleText(r) == "instructor" <==> r == Instructor
  {
    RoleTextInjective(r, Student);
    RoleTextInjective(r, Instructor);
  }

  /**
   Creating a user: the row is inserted without profiles, then the hook runs
   as for a new user. A role missing from the roles table breaks the foreign
   key and nothing is written.
   */
  function CreateUser(db: Db, uid: UserId, role: Option<RoleName>, now: int): (r: Result<Db>)
    requires uid !in db.users
    ensures r.Err? <==> role.Some? && role.value !in db.roles
    ensures r.Err? ==> r.error == IntegrityError
    ensures r.Ok? ==> r.value.users.Keys == db.users.Keys + {uid}
    ensures r.Ok? ==> forall v :: v in db.users ==> r.value.users[v] == db.users[v]
    ensures r.Ok? ==> r.value.users[uid].role == role
    ensures r.Ok? ==>
      r.value.users[uid].studentMax == if role == Some(Student) then Some(StudentDefaultMaxCredits) else None
    ensures r.Ok? ==>
      r.value.users[uid].instructorMax == if role == Some(Instructor) then Some(InstructorDefaultMaxCredits) else None
    ensures r.Ok? ==>
      r.value.notifications == if role.Some? then db.notifications + [Welcome(uid, now)] else db.notifications
    ensures r.Ok? ==> r.value.subjects == db.subjects && r.value.enrollments == db.enrollments && r.value.roles == db.roles
  {
    if role.Some? && role.value !in db.roles then Err(IntegrityError)
    else PostSave(db.(users := db.users[uid := NewUser(role)]), uid, true, now)
  }

  /**
   Saving an existing user stores the row and nothing else: no profile, no
   notification. A role missing from the roles table breaks the foreign key.
   */
  function SaveUser(db: Db, uid: UserId, user: User): (r: Result<Db>)
    requires uid in db.users
    ensures r.Err? <==> user.role.Some? && user.role.value !in db.roles
    ensures r.Err? ==> r.error == IntegrityError
    ensures r.Ok? ==> r.value.users == db.users[uid := user]
    ensures r.Ok? ==> r.value.notifications == db.notifications
    ensures r.Ok? ==> r.value.subjects == db.subjects && r.value.enrollments == db.enrollments && r.value.roles == db.roles
  {
    if user.role.Some? && user.role.value !in db.roles then Err(IntegrityError)
    else PostSave(db.(users := db.users[uid := user]), uid, false, 0)
  }

  /** A new user whose role is seeded keeps the database well formed. */
  lemma CreateUserWellFormed(db: Db, uid: UserId, role: Option<RoleName>, now: int)
    requires WellFormed(db) && uid !in db.users
    requires CreateUser(db, uid, role, now).Ok?
    ensures WellFormed(CreateUser(db, uid, role, now).value)
  {
    var r := CreateUser(db, uid, role, now).value;
    forall i | 0 <= i < |r.notifications|
      ensures r.notifications[i].user in r.users
    {
      if i < |db.notifications| {
        assert r.notifications[i] == db.notifications[i];
      }
    }
  }
}

=== FILE: store.dfy ===
/**
 The in-memory picture of the database: the tables, the integrity constraints
 the schema enforces, and the schema-level writes (inserting an enrollment,
 and the cascading deletes of subjects, users and roles).
 */
module Store {
  import opened Base
  import opened AccountsModels
  import opened SubjectsModels
  import opened Notifications

  /**
   The tables. `roles` is the set of seeded `Role` rows; enrollment rows are
   kept in primary-key (insertion) order; notifications likewise.
   */
  datatype Db = Db(
    roles: set<RoleName>,
    users: map<UserId, User>,
    subjects: map<SubjectId, Subject>,
    enrollments: seq<Enrollment>,
    notifications: seq<Notification>)

  function RowId(e: Enrollment): EnrollmentId { e.id }

  function RowPair(e: Enrollment): (UserId, SubjectId) { (e.student, e.subject) }

  /** Every reference between tables points at an existing row. */
  predicate ReferencesResolve(db: Db)
  {
    && (forall u :: u in db.users && db.users[u].role.Some? ==> db.users[u].role.value in db.roles)
    && (forall s :: s in db.subjects ==> db.subjects[s].prereqs <= db.subjects.Keys)
    && (forall s :: s in db.subjects && db.subjects[s].instructor.Some? ==> db.subjects[s].instructor.value in db.users)
    && (forall i :: 0 <= i < |db.enrollments| ==> db.enrollments[i].student in db.users)
    && (forall i :: 0 <= i < |db.enrollments| ==> db.enrollments[i].subject in db.subjects)
    && (forall i :: 0 <= i < |db.notifications| ==> db.notifications[i].user in db.users)
  }

  /** Subject codes are unique. */
  predicate UniqueCodes(db: Db)
  {
    forall a, b :: a in db.subjects && b in db.subjects && a != b ==> db.subjects[a].code != db.subjects[b].code
  }

  /**
   The constraints the schema enforces: primary keys, `unique_together`
   on (student, subject), unique codes, foreign keys, and the grade column's width.
   */
  predicate WellFormed(db: Db)
  {
    && Distinct(db.enrollments, RowId)
    && Distinct(db.enrollments, RowPair)
    && UniqueCodes(db)
    && ReferencesResolve(db)
    && (forall i :: 0 <= i < |db.enrollments| ==> GradeFits(db.enrollments[i].grade))
  }

  /** The primary key the next insert receives: one past the largest in use. */
  function NextId(rows: seq<Enrollment>): (k: EnrollmentId)
    ensures forall i :: 0 <= i < |rows| ==> rows[i].id < k
  {
    if rows == [] then 1
    else
      var rest := NextId(rows[1..]);
      if rows[0].id < rest then rest else rows[0].id + 1
  }

  /** The position of the row for (student, subject), if there is one. */
  function FindPair(rows: seq<Enrollment>, student: UserId, subject: SubjectId): (r: Option<nat>)
    ensures r.Some? ==> r.value < |rows| && rows[r.value].student == student && rows[r.value].subject == subject
    ensures r.None? ==> forall i :: 0 <= i < |rows| ==> RowPair(rows[i]) != (student, subject)
  {
    FindIndex(rows, (e: Enrollment) => e.student == student && e.subject == subject)
  }

  /**
   Inserting an enrollment row. A grade too wide for the column is refused as
   a data error before the row reaches the table; the schema then rejects a
   second row for the same (student, subject) pair, a reused primary key, and
   dangling references.
   */
  function InsertEnrollment(db: Db, e: Enrollment): (r: Result<Db>)
    ensures r.Err? <==>
      || (exists i :: 0 <= i < |db.enrollments| && RowPair(db.enrollments[i]) == RowPair(e))
      || (exists i :: 0 <= i < |db.enrollments| && db.enrollments[i].id == e.id)
      || e.student !in db.users || e.subject !in db.subjects || !GradeFits(e.grade)
    ensures r.Err? ==> r.error == (if GradeFits(e.grade) then IntegrityError else DataError)
    ensures r.Ok? ==> r.value == db.(enrollments := db.enrollments + [e])
  {
    if !GradeFits(e.grade) then Err(DataError)
    else if FindPair(db.enrollments, e.student, e.subject).Some? then Err(IntegrityError)
    else if FindIndex(db.enrollments, (x: Enrollment) => x.id == e.id).Some? then Err(IntegrityError)
    else if e.student !in db.users || e.subject !in db.subjects then Err(IntegrityError)
    else Ok(db.(enrollments := db.enrollments + [e]))
  }

  /** An accepted insert keeps the database well formed. */
  lemma InsertEnrollmentWellFormed(db: Db, e: Enrollment)
    requires WellFormed(db)
    requires InsertEnrollment(db, e).Ok?
    ensures WellFormed(InsertEnrollment(db, e).value)
  {
    AppendDistinct(db.enrollments, e, RowId);
    AppendDistinct(db.enrollments, e, RowPair);
  }

  /**
   Rewriting rows in place, keeping each row's key, student and subject and
   storing only grades that fit the column, keeps the database well formed.
   */
  lemma SameShapeWellFormed(db: Db, rows: seq<Enrollment>)
    requires WellFormed(db)
    requires |rows| == |db.enrollments|
    requires forall i :: 0 <= i < |rows| ==>
      && RowId(rows[i]) == RowId(db.enrollments[i]) && RowPair(rows[i]) == RowPair(db.enrollments[i])
      && GradeFits(rows[i].grade)
    ensures WellFormed(db.(enrollments := rows))
  {
    SameKeysDistinct(db.enrollments, rows, RowId);
    SameKeysDistinct(db.enrollments, rows, RowPair);
    var r := db.(enrollments := rows);
    forall i | 0 <= i < |rows|
      ensures rows[i].student in r.users && rows[i].subject in r.subjects
    {
      assert RowPair(rows[i]) == RowPair(db.enrollments[i]);
    }
  }

  /** With unique pairs, a second insert for a pair that already has a row is rejected. */
  lemma DuplicateInsertRejected(db: Db, e: Enrollment, f: Enrollment)
    requires InsertEnrollment(db, e).Ok?
    requires RowPair(f) == RowPair(e)
    ensures InsertEnrollment(InsertEnrollment(db, e).value, f) == Err(if GradeFits(f.grade) then IntegrityError else DataError)
  {
    var db' := InsertEnrollment(db, e).value;
    assert RowPair(db'.enrollments[|db.enrollments|]) == RowPair(f);
  }

  function WithoutPrereq(s: Subject, sid: SubjectId): Subject
  {
    s.(prereqs := s.prereqs - {sid})
  }

  /**
   Deleting a subject: its enrollments are deleted with it (cascade), and it
   disappears from every other subject's prerequisite set.
   */
  function DeleteSubject(db: Db, sid: SubjectId): (r: Db)
    ensures r.subjects.Keys == db.subjects.Keys - {sid}
    ensures forall s :: s in r.subjects ==> r.subjects[s] == WithoutPrereq(db.subjects[s], sid)
    ensures r.enrollments == RowsOutside(db.enrollments, sid)
    ensures r.users == db.users && r.roles == db.roles && r.notifications == db.notifications
  {
    db.(
      subjects := map s | s in db.subjects && s != sid :: WithoutPrereq(db.subjects[s], sid),
      enrollments := RowsOutside(db.enrollments, sid))
  }

  /** The enrollment rows not in subject `sid`, in order, each with its multiplicity. */
  function RowsOutside(rows: seq<Enrollment>, sid: SubjectId): (r: seq<Enrollment>)
    ensures forall i :: 0 <= i < |r| ==> r[i].subject != sid
    ensures forall i :: 0 <= i < |rows| && rows[i].subject != sid ==> rows[i] in r
    ensures forall e :: multiset(r)[e] == if e.subject == sid then 0 else multiset(rows)[e]
    ensures IsSubsequence(r, rows)
  {
    FilterMultiset(rows, (e: Enrollment) => e.subject != sid);
    Filter(rows, (e: Enrollment) => e.subject != sid)
  }

  function Unassign(s: Subject, uid: UserId): Subject
  {
    if s.instructor == Some(uid) then s.(instructor := None) else s
  }

  /** The enrollment rows not held by `uid`, in order, each with its multiplicity. */
  function RowsWithout(rows: seq<Enrollment>, uid: UserId): (r: seq<Enrollment>)
    ensures forall i :: 0 <= i < |r| ==> r[i].student != uid
    ensures forall i :: 0 <= i < |rows| && rows[i].student != uid ==> rows[i] in r
    ensures forall e :: multiset(r)[e] == if e.student == uid then 0 else multiset(rows)[e]
    ensures IsSubsequence(r, rows)
  {
    FilterMultiset(rows, (e: Enrollment) => e.student != uid);
    Filter(rows, (e: Enrollment) => e.student != uid)
  }

  /** The notifications not addressed to `uid`, in order, each with its multiplicity. */
  function NotificationsWithout(ns: seq<Notification>, uid: UserId): (r: seq<Notification>)
    ensures forall i :: 0 <= i < |r| ==> r[i].user != uid
    ensures forall i :: 0 <= i < |ns| && ns[i].user != uid ==> ns[i] in r
    ensures forall n :: multiset(r)[n] == if n.user == uid then 0 else multiset(ns)[n]
    ensures IsSubsequence(r, ns)
  {
    FilterMultiset(ns, (n: Notification) => n.user != uid);
    Filter(ns, (n: Notification) => n.user != uid)
  }

  /**
   Deleting a user: their enrollments, notifications and profiles go with them
   (cascade); subjects they taught are kept with no instructor (set null).
   */
  function DeleteUser(db: Db, uid: UserId): (r: Db)
    ensures r.users.Keys == db.users.Keys - {uid}
    ensures forall u :: u in r.users ==> r.users[u] == db.users[u]
    ensures r.subjects.Keys == db.subjects.Keys
    ensures forall s :: s in r.subjects ==> r.subjects[s].instructor != Some(uid)
    ensures forall s :: s in r.subjects && db.subjects[s].instructor != Some(uid) ==> r.subjects[s] == db.subjects[s]
    ensures forall s :: s in r.subjects ==> r.subjects[s] == db.subjects[s].(instructor := r.subjects[s].instructor)
    ensures forall s :: s in db.subjects && db.subjects[s].instructor == Some(uid) ==> r.subjects[s].instructor.None?
    ensures r.enrollments == RowsWithout(db.enrollments, uid)
    ensures r.notifications == NotificationsWithout(db.notifications, uid)
    ensures r.roles == db.roles
  {
    Db(
      db.roles,
      map u | u in db.users && u != uid :: db.users[u],
      map s | s in db.subjects :: Unassign(db.subjects[s], uid),
      RowsWithout(db.enrollments, uid),
      NotificationsWithout(db.notifications, uid))
  }

  /** Deleting a role is refused while any user still holds it. */
  function DeleteRole(db: Db, role: RoleName): (r: Result<Db>)
    ensures r.Err? <==> exists u :: u in db.users && db.users[u].role == Some(role)
    ensures r.Err? ==> r.error == ProtectedError
    ensures r.Ok? ==> r.value.roles == db.roles - {role} && r.value.users == db.users
    ensures r.Ok? ==> r.value.subjects == db.subjects && r.value.enrollments == db.enrollments
    ensures r.Ok? ==> r.value.notifications == db.notifications
  {
    if exists u :: u in db.users && db.users[u].role == Some(role) then Err(ProtectedError)
    else Ok(db.(roles := db.roles - {role}))
  }

  lemma DeleteSubjectWellFormed(db: Db, sid: SubjectId)
    requires WellFormed(db)
    ensures WellFormed(DeleteSubject(db, sid))
  {
    var p := (e: Enrollment) => e.subject != sid;
    FilterDistinct(db.enrollments, RowId, p);
    FilterDistinct(db.enrollments, RowPair, p);
    var r := DeleteSubject(db, sid);
    forall i | 0 <= i < |r.enrollments|
      ensures r.enrollments[i].subject in r.subjects
      ensures r.enrollments[i].student in r.users
      ensures GradeFits(r.enrollments[i].grade)
    {
      assert r.enrollments[i] in db.enrollments;
    }
  }

  lemma DeleteUserWellFormed(db: Db, uid: UserId)
    requires WellFormed(db)
    ensures WellFormed(DeleteUser(db, uid))
  {
    var p := (e: Enrollment) => e.student != uid;
    FilterDistinct(db.enrollments, RowId, p);
    FilterDistinct(db.enrollments, RowPair, p);
    var r := DeleteUser(db, uid);
    forall i | 0 <= i < |r.enrollments|
      ensures r.enrollments[i].subject in r.subjects
      ensures r.enrollments[i].student in r.users
      ensures GradeFits(r.enrollments[i].grade)
    {
      assert r.enrollments[i] in db.enrollments;
    }
    forall i | 0 <= i < |r.notifications|
      ensures r.notifications[i].user in r.users
    {
      assert r.notifications[i] in db.notifications;
    }
  }

  lemma DeleteRoleWellFormed(db: Db, role: RoleName)
    requires WellFormed(db)
    requires DeleteRole(db, role).Ok?
    ensures WellFormed(DeleteRole(db, role).value)
  {
  }

  /** Prerequisites are one-way: a well-formed database may have A require B while B does not require A. */
  lemma PrerequisitesNotSymmetric()
    ensures exists db: Db :: && WellFormed(db) && 1 in db.subjects && 2 in db.subjects
                             && 2 in db.subjects[1].prereqs && 1 !in db.subjects[2].prereqs
  {
    var a := Subject("Calculus II", "MAT2", 4, {2}, None);
    var b := Subject("Calculus I", "MAT1", 4, {}, None);
    var db := Db({}, map[], map[1 := a, 2 := b], [], []);
    assert a.code[3] != b.code[3];
    assert WellFormed(db);
  }
}

=== FILE: subjects_models.dfy ===
/**
 The subject catalogue and the enrollment rows that link a student to a subject.
 */
module SubjectsModels {
  import opened Base
  import opened AccountsModels

  type SubjectId = nat
  type EnrollmentId = nat

  /**
   A subject: its unique `code`, credit weight, the (non-symmetric) set of
   subjects it requires, and the nullable assigned instructor.
   */
  datatype Subject = Subject(
    name: string,
    code: string,
    credits: nat,
    prereqs: set<SubjectId>,
    instructor: Option<UserId>)

  /** The four choices of `Enrollment.state`. */
  datatype State = Enrolled | Approved | Failed | Closed

  /** The stored text of a state. */
  function StateText(s: State): string
  {
    match s
    case Enrolled => "enrolled"
    case Approved => "approved"
    case Failed => "failed"
    case Closed => "closed"
  }

  /** Reads a stored state back; `None` for text outside the choices. */
  function ParseState(text: string): (r: Option<State>)
    ensures r.Some? ==> StateText(r.value) == text
    ensures r.None? ==> forall s: State :: StateText(s) != text
  {
    if text == "enrolled" then Some(Enrolled)
    else if text == "approved" then Some(Approved)
    else if text == "failed" then Some(Failed)
    else if text == "closed" then Some(Closed)
    else None
  }

  /** Every state survives a store/load round trip. */
  lemma ParseStateText(s: State)
    ensures ParseState(StateText(s)) == Some(s)
  {
    match s
    case Enrolled =>
    case Approved =>
      assert StateText(s)[0] != "enrolled"[0];
    case Failed =>
      assert StateText(s)[0] != "enrolled"[0];
      assert StateText(s)[0] != "approved"[0];
    case Closed =>
      assert StateText(s)[0] != "enrolled"[0];
      assert StateText(s)[0] != "approved"[0];
      assert StateText(s)[0] != "failed"[0];
  }

  /**
   An enrollment row. A grade is a count of tenths (the column keeps one
   fractional digit); `None` is the null grade.
   */
  datatype Enrollment = Enrollment(
    id: EnrollmentId,
    student: UserId,
    subject: SubjectId,
    state: State,
    grade: Option<int>,
    createdAt: int)

  /**
   The grade column holds at most three digits with one after the point, so
   at most 99.9 in magnitude. The [0, 5] range is not enforced here.
   */
  predicate GradeFits(g: Option<int>)
  {
    g.Some? ==> -999 <= g.value <= 999
  }

  /** A row as the model's field defaults create it. */
  function NewEnrollment(id: EnrollmentId, student: UserId, subject: SubjectId, now: int): (e: Enrollment)
    ensures e.id == id && e.student == student && e.subject == subject
    ensures e.state == Enrolled && e.grade == None && e.createdAt == now
  {
    Enrollment(id, student, subject, Enrolled, None, now)
  }
}

=== FILE: subjects_services.dfy ===
/**
 The enrollment rule engine: eligibility, enrollment, the per-student views,
 grading, closing a subject, and assigning its instructor.
 */
module SubjectsServices {
  import opened Base
  import opened AccountsModels
  import opened SubjectsModels
  import opened Notifications
  import opened Store

  // ---------------------------------------------------------------------------
  // Eligibility
  // ---------------------------------------------------------------------------

  /** The four reasons an enrollment is refused. */
  datatype Reason = NotAuthorized | AlreadyTaken | MissingPrerequisites | CreditsExceeded

  /** The reason text shown to the end user. */
  function ReasonText(r: Reason): string
  {
    match r
    case NotAuthorized => "not authorized"
    case AlreadyTaken => "already taken or enrolled"
    case MissingPrerequisites => "missing prerequisites"
    case CreditsExceeded => "credits exceeded"
  }

  /** The `(bool, reason)` pair of the eligibility check. */
  datatype Verdict = Allowed | Denied(reason: Reason)

  /** The reason text of a verdict; an allowed enrollment reads "ok". */
  function VerdictText(v: Verdict): string
  {
    match v
    case Allowed => "ok"
    case Denied(r) => ReasonText(r)
  }

  /** States that block a new enrollment in the same subject; `Failed` does not. */
  predicate Blocks(s: State)
  {
    s == Approved || s == Enrolled || s == Closed
  }

  /** The student already holds a blocking row for the subject. */
  predicate HasBlockingRow(db: Db, u: UserId, sid: SubjectId)
  {
    exists i :: 0 <= i < |db.enrollments| && RowPair(db.enrollments[i]) == (u, sid) && Blocks(db.enrollments[i].state)
  }

  /** The student has an approved row for the subject. */
  predicate HasApproved(db: Db, u: UserId, sid: SubjectId)
  {
    exists i :: 0 <= i < |db.enrollments| && RowPair(db.enrollments[i]) == (u, sid) && db.enrollments[i].state == Approved
  }

  /** Every prerequisite of the subject has an approved row for the student. */
  predicate PrereqsApproved(db: Db, u: UserId, sid: SubjectId)
    requires sid in db.subjects
  {
    forall p :: p in db.subjects[sid].prereqs ==> HasApproved(db, u, p)
  }

  /** The subjects of the student's approved rows. */
  function ApprovedSubjectIds(db: Db, u: UserId): set<SubjectId>
  {
    set i | 0 <= i < |db.enrollments| && db.enrollments[i].student == u && db.enrollments[i].state == Approved
      :: db.enrollments[i].subject
  }

  /** Credit weight of a subject; a dangling reference (excluded by the foreign key) weighs 0. */
  function CreditsOf(subjects: map<SubjectId, Subject>, sid: SubjectId): nat
  {
    if sid in subjects then subjects[sid].credits else 0
  }

  /** What one row adds to the student's current credit load. */
  function Load(subjects: map<SubjectId, Subject>, u: UserId, e: Enrollment): nat
  {
    if e.student == u && e.state == Enrolled then CreditsOf(subjects, e.subject) else 0
  }

  /** The credits of the subjects the student is currently enrolled in. */
  function CreditLoad(subjects: map<SubjectId, Subject>, rows: seq<Enrollment>, u: UserId): nat
  {
    if rows == [] then 0 else Load(subjects, u, rows[0]) + CreditLoad(subjects, rows[1..], u)
  }

  function EnrolledCredits(db: Db, u: UserId): nat
  {
    CreditLoad(db.subjects, db.enrollments, u)
  }

  /**
   The eligibility check. The rules run in a fixed order and the first one
   that fails decides: role, then an existing row, then prerequisites, then
   the credit limit. A missing subject raises, but only once the role passed.
   */
  function CanEnroll(db: Db, u: UserId, sid: SubjectId): (r: Result<Verdict>)
    requires u in db.users
    ensures r == Ok(Denied(NotAuthorized)) <==> db.users[u].role != Some(Student)
    ensures r.Err? <==> db.users[u].role == Some(Student) && sid !in db.subjects
    ensures r.Err? ==> r.error == NotFound
    ensures r == Ok(Denied(AlreadyTaken)) <==>
      db.users[u].role == Some(Student) && sid in db.subjects && HasBlockingRow(db, u, sid)
    ensures r == Ok(Denied(MissingPrerequisites)) <==>
      && db.users[u].role == Some(Student) && sid in db.subjects && !HasBlockingRow(db, u, sid)
      && !PrereqsApproved(db, u, sid)
    ensures r == Ok(Denied(CreditsExceeded)) <==>
      && db.users[u].role == Some(Student) && sid in db.subjects && !HasBlockingRow(db, u, sid)
      && PrereqsApproved(db, u, sid)
      && EnrolledCredits(db, u) + db.subjects[sid].credits > StudentLimit(db.users[u])
    ensures r == Ok(Allowed) <==>
      && db.users[u].role == Some(Student) && sid in db.subjects && !HasBlockingRow(db, u, sid)
      && PrereqsApproved(db, u, sid)
      && EnrolledCredits(db, u) + db.subjects[sid].credits <= StudentLimit(db.users[u])
  {
    var user := db.users[u];
    if user.role.None? || RoleText(user.role.value) != "student" then
      RoleIsStudent(user.role);
      Ok(Denied(NotAuthorized))
    else if sid !in db.subjects then
      Err(NotFound)
    else
      var subject := db.subjects[sid];
      var taken := FindIndex(db.enrollments, (e: Enrollment) => e.student == u && e.subject == sid && Blocks(e.state));
      if taken.Some? then
        Ok(Denied(AlreadyTaken))
      else
        ApprovedSubjectIdsMeaning(db, u, sid);
        if !(subject.prereqs <= ApprovedSubjectIds(db, u)) then
          Ok(Denied(MissingPrerequisites))
        else if EnrolledCredits(db, u) + subject.credits > StudentLimit(user) then
          Ok(Denied(CreditsExceeded))
        else
          Ok(Allowed)
  }

  lemma RoleIsStudent(role: Option<RoleName>)
    ensures (role.Some? && RoleText(role.value) == "student") <==> role == Some(Student)
  {
    if role.Some? {
      RoleTextInjective(role.value, Student);
    }
  }

  lemma ApprovedSubjectIdsMeaning(db: Db, u: UserId, sid: SubjectId)
    requires sid in db.subjects
    ensures db.subjects[sid].prereqs <= ApprovedSubjectIds(db, u) <==> PrereqsApproved(db, u, sid)
  {
    if PrereqsApproved(db, u, sid) {
      forall p | p in db.subjects[sid].prereqs
        ensures p in ApprovedSubjectIds(db, u)
      {
        assert HasApproved(db, u, p);
      }
    }
  }

  /** Whatever else holds, a user whose role is not student is never allowed. */
  lemma OnlyStudentsAllowed(db: Db, u: UserId, sid: SubjectId)
    requires u in db.users
    requires CanEnroll(db, u, sid) == Ok(Allowed)
    ensures db.users[u].role == Some(Student)
  {
  }

  /** A failed row is no obstacle: a subject whose only rows are failed can be retaken. */
  lemma FailedRowDoesNotBlock(db: Db, u: UserId, sid: SubjectId)
    requires u in db.users
    requires forall i :: 0 <= i < |db.enrollments| && RowPair(db.enrollments[i]) == (u, sid) ==> db.enrollments[i].state == Failed
    ensures CanEnroll(db, u, sid) != Ok(Denied(AlreadyTaken))
  {
  }

  /** A prerequisite whose row is closed (not approved) still counts as missing. */
  lemma ClosedPrereqIsMissing(db: Db, u: UserId, sid: SubjectId, p: SubjectId)
    requires u in db.users && db.users[u].role == Some(Student)
    requires sid in db.subjects && p in db.subjects[sid].prereqs
    requires !HasBlockingRow(db, u, sid)
    requires forall i :: 0 <= i < |db.enrollments| && RowPair(db.enrollments[i]) == (u, p) ==> db.enrollments[i].state == Closed
    ensures CanEnroll(db, u, sid) == Ok(Denied(MissingPrerequisites))
  {
  }

  // ---------------------------------------------------------------------------
  // Enrollment
  // ---------------------------------------------------------------------------

  /**
   Get-or-create of the (student, subject) row. An existing row, whatever its
   state, is returned unchanged; otherwise one row is appended in state
   enrolled with no grade. A missing subject raises before the lookup; a
   student missing from the users table makes the insert break the foreign key.
   */
  function Enroll(db: Db, u: UserId, sid: SubjectId, now: int): (r: Result<(Db, Enrollment)>)
    ensures r.Err? <==>
      || sid !in db.subjects
      || (u !in db.users && forall i :: 0 <= i < |db.enrollments| ==> RowPair(db.enrollments[i]) != (u, sid))
    ensures r.Err? ==> r.error == if sid !in db.subjects then NotFound else IntegrityError
    ensures r.Ok? && (exists i :: 0 <= i < |db.enrollments| && RowPair(db.enrollments[i]) == (u, sid)) ==>
      && r.value.0 == db
      && r.value.1 in db.enrollments && RowPair(r.value.1) == (u, sid)
    ensures r.Ok? && (forall i :: 0 <= i < |db.enrollments| ==> RowPair(db.enrollments[i]) != (u, sid)) ==>
      && r.value.0 == db.(enrollments := db.enrollments + [r.value.1])
      && RowPair(r.value.1) == (u, sid)
      && r.value.1.state == Enrolled && r.value.1.grade == None && r.value.1.createdAt == now
      && forall i :: 0 <= i < |db.enrollments| ==> db.enrollments[i].id != r.value.1.id
  {
    if sid !in db.subjects then Err(NotFound)
    else match FindPair(db.enrollments, u, sid)
      case Some(i) => Ok((db, db.enrollments[i]))
      case None =>
        if u !in db.users then Err(IntegrityError)
        else
        var e := NewEnrollment(NextId(db.enrollments), u, sid, now);
        Ok((db.(enrollments := db.enrollments + [e]), e))
  }

  /** Enrolling twice yields the same row and the same database as enrolling once. */
  lemma EnrollIdempotent(db: Db, u: UserId, sid: SubjectId, now1: int, now2: int)
    requires Enroll(db, u, sid, now1).Ok?
    ensures Enroll(Enroll(db, u, sid, now1).value.0, u, sid, now2) == Enroll(db, u, sid, now1)
  {
    var db1 := Enroll(db, u, sid, now1).value.0;
    if FindPair(db.enrollments, u, sid).None? {
      var e := db1.enrollments[|db.enrollments|];
      assert RowPair(e) == (u, sid);
      var k := FindPair(db1.enrollments, u, sid);
      assert k.Some?;
    } else {
      var i := FindPair(db.enrollments, u, sid).value;
      assert FindPair(db1.enrollments, u, sid) == Some(i);
    }
  }

  /** An accepted enrollment keeps the database well formed. */
  lemma EnrollWellFormed(db: Db, u: UserId, sid: SubjectId, now: int)
    requires WellFormed(db)
    requires Enroll(db, u, sid, now).Ok?
    ensures WellFormed(Enroll(db, u, sid, now).value.0)
  {
    if FindPair(db.enrollments, u, sid).None? {
      var e := Enroll(db, u, sid, now).value.1;
      AppendDistinct(db.enrollments, e, RowId);
      AppendDistinct(db.enrollments, e, RowPair);
    }
  }

  /**
   A retake does not re-open a failed row: the eligibility check allows it,
   yet get-or-create hands back the failed row and changes nothing.
   */
  lemma RetakeKeepsFailedRow(db: Db, u: UserId, sid: SubjectId, now: int, i: nat)
    requires WellFormed(db) && u in db.users
    requires i < |db.enrollments| && RowPair(db.enrollments[i]) == (u, sid)
    requires db.enrollments[i].state == Failed
    ensures CanEnroll(db, u, sid) != Ok(Denied(AlreadyTaken))
    ensures Enroll(db, u, sid, now) == Ok((db, db.enrollments[i]))
  {
    assert forall j :: 0 <= j < |db.enrollments| && RowPair(db.enrollments[j]) == (u, sid) ==> j == i;
  }

  // ---------------------------------------------------------------------------
  // Student views
  // ---------------------------------------------------------------------------

  /** The rows of a table held by student `u`, in table order. */
  function RowsOf(rows: seq<Enrollment>, u: UserId): seq<Enrollment>
  {
    Filter(rows, (e: Enrollment) => e.student == u)
  }

  /** The student's rows, in table order. */
  function StudentRows(db: Db, u: UserId): (r: seq<Enrollment>)
    ensures forall i :: 0 <= i < |r| ==> r[i] in db.enrollments && r[i].student == u
    ensures forall i :: 0 <= i < |db.enrollments| && db.enrollments[i].student == u ==> db.enrollments[i] in r
    ensures forall e :: multiset(r)[e] == if e.student == u then multiset(db.enrollments)[e] else 0
    ensures IsSubsequence(r, db.enrollments)
  {
    FilterMultiset(db.enrollments, (e: Enrollment) => e.student == u);
    RowsOf(db.enrollments, u)
  }

  /** The student's rows in one state (the enrolled, approved and failed views). */
  function RowsInState(db: Db, u: UserId, st: State): (r: seq<Enrollment>)
    ensures forall i :: 0 <= i < |r| ==> r[i] in db.enrollments && r[i].student == u && r[i].state == st
    ensures forall i :: 0 <= i < |db.enrollments| && db.enrollments[i].student == u && db.enrollments[i].state == st ==>
      db.enrollments[i] in r
    ensures forall e :: multiset(r)[e] == if e.student == u && e.state == st then multiset(db.enrollments)[e] else 0
    ensures IsSubsequence(r, db.enrollments)
  {
    FilterMultiset(db.enrollments, (e: Enrollment) => e.student == u && e.state == st);
    Filter(db.enrollments, (e: Enrollment) => e.student == u && e.state == st)
  }

  function EnrolledSubjects(db: Db, u: UserId): seq<Enrollment> { RowsInState(db, u, Enrolled) }
  function ApprovedSubjects(db: Db, u: UserId): seq<Enrollment> { RowsInState(db, u, Approved) }
  function FailedSubjects(db: Db, u: UserId): seq<Enrollment> { RowsInState(db, u, Failed) }

  function CountRowsInState(rows: seq<Enrollment>, u: UserId, st: State): nat
  {
    |Filter(rows, (e: Enrollment) => e.student == u && e.state == st)|
  }

  /** The four state views of a student partition the student's rows. */
  lemma {:induction false} StateViewsPartition(rows: seq<Enrollment>, u: UserId)
    ensures CountRowsInState(rows, u, Enrolled) + CountRowsInState(rows, u, Approved)
          + CountRowsInState(rows, u, Failed) + CountRowsInState(rows, u, Closed)
         == |Filter(rows, (e: Enrollment) => e.student == u)|
    decreases |rows|
  {
    if rows != [] {
      StateViewsPartition(rows[1..], u);
    }
  }

  /** The row carries a grade. */
  predicate Graded(e: Enrollment) { e.grade.Some? }

  /** Every recorded grade in the table lies in [0, 5.0]. */
  predicate AllGradesInRange(rows: seq<Enrollment>)
  {
    forall i :: 0 <= i < |rows| && rows[i].grade.Some? ==> 0 <= rows[i].grade.value <= MaxGrade
  }

  /**
   Every non-null grade of a table, in table order: the k-th value is the
   grade of the k-th graded row.
   */
  function AllGrades(rows: seq<Enrollment>): (g: seq<int>)
    ensures |g| == |Filter(rows, Graded)|
    ensures forall k :: 0 <= k < |g| ==> Filter(rows, Graded)[k].grade == Some(g[k])
    ensures g == [] <==> forall i :: 0 <= i < |rows| ==> rows[i].grade.None?
    ensures AllGradesInRange(rows) ==> forall k :: 0 <= k < |g| ==> 0 <= g[k] <= MaxGrade
  {
    if rows == [] then []
    else
      assert forall i :: 1 <= i < |rows| ==> rows[i] == rows[1..][i - 1];
      var rest := AllGrades(rows[1..]);
      if rows[0].grade.Some? then
        assert Filter(rows, Graded) == [rows[0]] + Filter(rows[1..], Graded);
        [rows[0].grade.value] + rest
      else
        rest
  }

  /** The non-null grades of the student's rows, in table order, whatever their state. */
  function StudentGrades(rows: seq<Enrollment>, u: UserId): (g: seq<int>)
    ensures |g| <= |rows|
    ensures g == [] <==> forall i :: 0 <= i < |rows| && rows[i].student == u ==> rows[i].grade.None?
    ensures GradesInRange(rows, u) ==> forall k :: 0 <= k < |g| ==> 0 <= g[k] <= MaxGrade
  {
    if rows == [] then []
    else
      var rest := StudentGrades(rows[1..], u);
      assert forall i :: 1 <= i < |rows| ==> rows[i] == rows[1..][i - 1];
      if rows[0].student == u && rows[0].grade.Some? then [rows[0].grade.value] + rest else rest
  }

  /** The student's grades are exactly the grades of the student's rows. */
  lemma {:induction false} StudentGradesOfRows(rows: seq<Enrollment>, u: UserId)
    ensures StudentGrades(rows, u) == AllGrades(RowsOf(rows, u))
    decreases |rows|
  {
    if rows != [] {
      StudentGradesOfRows(rows[1..], u);
      var p := (e: Enrollment) => e.student == u;
      if p(rows[0]) {
        assert RowsOf(rows, u) == [rows[0]] + RowsOf(rows[1..], u);
        assert ([rows[0]] + RowsOf(rows[1..], u))[1..] == RowsOf(rows[1..], u);
      }
    }
  }

  /** All recorded grades of the student lie in [0, 5.0]. */
  predicate GradesInRange(rows: seq<Enrollment>, u: UserId)
  {
    forall i :: 0 <= i < |rows| && rows[i].student == u && rows[i].grade.Some? ==> 0 <= rows[i].grade.value <= MaxGrade
  }

  /**
   The grade point average in tenths: the mean of every non-null grade of the
   student, approved or failed alike; 0 when there is none.
   */
  function Gpa(db: Db, u: UserId): (r: real)
    ensures StudentGrades(db.enrollments, u) == [] ==> r == 0.0
    ensures GradesInRange(db.enrollments, u) ==> 0.0 <= r <= MaxGrade as real
  {
    GpaBounds(db.enrollments, u);
    Mean(StudentGrades(db.enrollments, u))
  }

  /**
   The GPA is the arithmetic mean of the grades of the student's rows: their
   sum divided by their number, 0 when the student has no grade.
   */
  lemma GpaIsMean(db: Db, u: UserId)
    ensures var g := AllGrades(StudentRows(db, u));
      && StudentGrades(db.enrollments, u) == g
      && Gpa(db, u) == if g == [] then 0.0 else (Sum(g) as real) / (|g| as real)
  {
    StudentGradesOfRows(db.enrollments, u);
  }

  lemma GpaBounds(rows: seq<Enrollment>, u: UserId)
    ensures GradesInRange(rows, u) ==> 0.0 <= Mean(StudentGrades(rows, u)) <= MaxGrade as real
  {
    var g := StudentGrades(rows, u);
    if g != [] && GradesInRange(rows, u) {
      MeanBounds(g, 0, MaxGrade);
    }
  }

  /** Grades 5.0, 4.0 and 3.0 average to exactly 4.0. */
  lemma GpaExample(db: Db, u: UserId)
    requires db.enrollments == [
      Enrollment(1, u, 10, Approved, Some(50), 0),
      Enrollment(2, u, 11, Approved, Some(40), 0),
      Enrollment(3, u, 12, Approved, Some(30), 0)]
    ensures Gpa(db, u) == 40.0
  {
    var rows := db.enrollments;
    assert rows[1..][1..][1..] == [];
    assert StudentGrades(rows[1..][1..], u) == [30];
    assert StudentGrades(rows[1..], u) == [40, 30];
    assert StudentGrades(rows, u) == [50, 40, 30];
    assert Sum([50, 40, 30]) == 120;
  }

  /** The GPA depends only on who holds which grade, not on the rows' states. */
  lemma {:induction false} StudentGradesIgnoreState(a: seq<Enrollment>, b: seq<Enrollment>, u: UserId)
    requires |a| == |b|
    requires forall i :: 0 <= i < |a| ==> a[i].student == b[i].student && a[i].grade == b[i].grade
    ensures StudentGrades(a, u) == StudentGrades(b, u)
    decreases |a|
  {
    if a != [] {
      StudentGradesIgnoreState(a[1..], b[1..], u);
    }
  }

  predicate ByCreation(h: seq<Enrollment>)
  {
    forall i, j :: 0 <= i < j < |h| ==> h[i].createdAt <= h[j].createdAt
  }

  /** Putting a row in front of a creation-ordered sequence keeps the order when it is no newer than the head. */
  lemma ConsByCreation(x: Enrollment, h: seq<Enrollment>)
    requires ByCreation(h)
    requires h != [] ==> x.createdAt <= h[0].createdAt
    ensures ByCreation([x] + h)
  {
    var r := [x] + h;
    forall i, j | 0 <= i < j < |r|
      ensures r[i].createdAt <= r[j].createdAt
    {
      assert r[j] == h[j - 1];
      if i > 0 {
        assert r[i] == h[i - 1];
      } else if j > 1 {
        assert h[0].createdAt <= h[j - 1].createdAt;
      }
    }
  }

  /** Inserts a row into a creation-ordered sequence, after rows created no later. */
  function InsertByCreation(h: seq<Enrollment>, e: Enrollment): (r: seq<Enrollment>)
    requires ByCreation(h)
    ensures |r| == |h| + 1
    ensures ByCreation(r)
    ensures multiset(r) == multiset(h) + multiset{e}
    ensures r[0] == e || (h != [] && r[0] == h[0])
  {
    if h == [] then [e]
    else if e.createdAt < h[0].createdAt then
      ConsByCreation(e, h);
      [e] + h
    else
      var rest := InsertByCreation(h[1..], e);
      assert h == [h[0]] + h[1..];
      ConsByCreation(h[0], rest);
      [h[0]] + rest
  }

  /** The student's academic history: all of the student's rows, oldest first. */
  method History(db: Db, u: UserId) returns (h: seq<Enrollment>)
    ensures multiset(h) == multiset(StudentRows(db, u))
    ensures ByCreation(h)
  {
    var rows := StudentRows(db, u);
    h := [];
    var k := 0;
    while k < |rows|
      invariant 0 <= k <= |rows|
      invariant ByCreation(h)
      invariant multiset(h) == multiset(rows[..k])
    {
      h := InsertByCreation(h, rows[k]);
      assert rows[..k + 1] == rows[..k] + [rows[k]];
      k := k + 1;
    }
    assert rows[..|rows|] == rows;
  }

  // ---------------------------------------------------------------------------
  // Instructor operations
  // ---------------------------------------------------------------------------

  /** The row's subject exists and is assigned to the instructor. */
  predicate Teaches(db: Db, instructor: UserId, e: Enrollment)
  {
    e.subject in db.subjects && db.subjects[e.subject].instructor == Some(instructor)
  }

  /**
   The rows of a subject, scoped to the calling instructor: empty for a subject
   assigned to someone else (or to nobody), with no error raised.
   */
  function StudentsBySubject(db: Db, instructor: UserId, sid: SubjectId): (r: seq<Enrollment>)
    ensures !(sid in db.subjects && db.subjects[sid].instructor == Some(instructor)) ==> r == []
    ensures forall i :: 0 <= i < |r| ==> r[i] in db.enrollments && r[i].subject == sid
    ensures sid in db.subjects && db.subjects[sid].instructor == Some(instructor) ==>
      forall i :: 0 <= i < |db.enrollments| && db.enrollments[i].subject == sid ==> db.enrollments[i] in r
    ensures IsSubsequence(r, db.enrollments)
  {
    var p := (e: Enrollment) => e.subject == sid && Teaches(db, instructor, e);
    if sid in db.subjects && db.subjects[sid].instructor == Some(instructor) then
      Filter(db.enrollments, p)
    else
      FilterNone(db.enrollments, p);
      Filter(db.enrollments, p)
  }

  /** For the subject's own instructor, the list holds each of the subject's rows exactly as often as the table does. */
  lemma StudentsBySubjectCounts(db: Db, instructor: UserId, sid: SubjectId)
    requires sid in db.subjects && db.subjects[sid].instructor == Some(instructor)
    ensures forall e :: multiset(StudentsBySubject(db, instructor, sid))[e] == (if e.subject == sid then multiset(db.enrollments)[e] else 0)
  {
    FilterMultiset(db.enrollments, (e: Enrollment) => e.subject == sid && Teaches(db, instructor, e));
  }

  /** The passing mark, 3.0, in tenths. */
  const PassMark: int := 30

  /** The highest grade, 5.0, in tenths. */
  const MaxGrade: int := 50

  /** Decimal digits of a natural number. */
  function NatText(n: nat): (s: string)
    ensures |s| >= 1
    ensures forall k :: 0 <= k < |s| ==> '0' <= s[k] <= '9'
  {
    var d := [(n % 10) as char + '0'];
    if n < 10 then d else NatText(n / 10) + d
  }

  /** A grade in tenths as the one-decimal text the message embeds, e.g. 45 as "4.5". */
  function TenthsText(g: nat): string
  {
    NatText(g / 10) + "." + NatText(g % 10)
  }

  /** The state a grade decides: approved from 3.0 up, failed below. */
  function StateForGrade(g: int): (s: State)
    ensures s == Approved <==> g >= PassMark
    ensures s == Failed <==> g < PassMark
  {
    if g >= PassMark then Approved else Failed
  }

  /**
   Grading. A value outside [0, 5.0] is rejected before anything is looked up;
   a row that does not exist or belongs to another instructor's subject is
   not found; otherwise the row gets the grade, the state it decides (whatever
   the prior state), and the student is notified.
   */
  function Grade(db: Db, instructor: UserId, eid: EnrollmentId, value: int, now: int): (r: Result<(Db, Enrollment)>)
    ensures (value < 0 || value > MaxGrade) ==> r == Err(InvalidRange)
    ensures r.Ok? <==>
      0 <= value <= MaxGrade
      && exists i :: 0 <= i < |db.enrollments| && db.enrollments[i].id == eid && Teaches(db, instructor, db.enrollments[i])
    ensures r.Err? && 0 <= value <= MaxGrade ==> r.error == NotFound
    ensures r.Ok? ==>
      exists i :: 0 <= i < |db.enrollments| && db.enrollments[i].id == eid && Teaches(db, instructor, db.enrollments[i])
        && r.value.1 == db.enrollments[i].(grade := Some(value), state := r.value.1.state)
        && r.value.0.enrollments == db.enrollments[i := r.value.1]
        && r.value.0.notifications == db.notifications + [NewNotification(
             db.enrollments[i].student, "grade",
             "Grade " + TenthsText(value) + " in " + db.subjects[db.enrollments[i].subject].name, now)]
    ensures r.Ok? ==> (r.value.1.state == Approved <==> value >= PassMark)
    ensures r.Ok? ==> (r.value.1.state == Failed <==> value < PassMark)
    ensures r.Ok? ==> r.value.0.users == db.users && r.value.0.subjects == db.subjects && r.value.0.roles == db.roles
  {
    if value < 0 || value > MaxGrade then Err(InvalidRange)
    else match FindIndex(db.enrollments, (e: Enrollment) => e.id == eid && Teaches(db, instructor, e))
      case None => Err(NotFound)
      case Some(i) =>
        var e := db.enrollments[i];
        var graded := e.(grade := Some(value), state := StateForGrade(value));
        var note := NewNotification(e.student, "grade", "Grade " + TenthsText(value) + " in " + db.subjects[e.subject].name, now);
        Ok((db.(enrollments := db.enrollments[i := graded], notifications := db.notifications + [note]), graded))
  }

  /** Grading at exactly 3.0 approves; 2.9 fails; 0 and 5.0 are accepted; -0.1 and 5.1 are not. */
  lemma GradeBoundaries(db: Db, instructor: UserId, eid: EnrollmentId, now: int)
    requires exists i :: 0 <= i < |db.enrollments| && db.enrollments[i].id == eid && Teaches(db, instructor, db.enrollments[i])
    ensures Grade(db, instructor, eid, 30, now).Ok? && Grade(db, instructor, eid, 30, now).value.1.state == Approved
    ensures Grade(db, instructor, eid, 29, now).Ok? && Grade(db, instructor, eid, 29, now).value.1.state == Failed
    ensures Grade(db, instructor, eid, 0, now).Ok? && Grade(db, instructor, eid, 50, now).Ok?
    ensures Grade(db, instructor, eid, -1, now) == Err(InvalidRange)
    ensures Grade(db, instructor, eid, 51, now) == Err(InvalidRange)
  {
  }

  lemma GradeWellFormed(db: Db, instructor: UserId, eid: EnrollmentId, value: int, now: int)
    requires WellFormed(db)
    requires Grade(db, instructor, eid, value, now).Ok?
    ensures WellFormed(Grade(db, instructor, eid, value, now).value.0)
  {
    var r := Grade(db, instructor, eid, value, now).value;
    SameShapeWellFormed(db, r.0.enrollments);
    assert r.0 == db.(enrollments := r.0.enrollments).(notifications := r.0.notifications);
  }

  /** Marks every row of the subject closed, leaving every other row alone. */
  function CloseRows(rows: seq<Enrollment>, sid: SubjectId): (r: seq<Enrollment>)
    ensures |r| == |rows|
    ensures forall i :: 0 <= i < |rows| ==> r[i] == if rows[i].subject == sid then rows[i].(state := Closed) else rows[i]
  {
    if rows == [] then []
    else [if rows[0].subject == sid then rows[0].(state := Closed) else rows[0]] + CloseRows(rows[1..], sid)
  }

  /** The instructor may close the subject: it has rows under them and every one is graded. */
  predicate Closable(db: Db, instructor: UserId, sid: SubjectId)
  {
    && sid in db.subjects && db.subjects[sid].instructor == Some(instructor)
    && (exists i :: 0 <= i < |db.enrollments| && db.enrollments[i].subject == sid)
    && (forall i :: 0 <= i < |db.enrollments| && db.enrollments[i].subject == sid ==> db.enrollments[i].grade.Some?)
  }

  /**
   Closing a subject: all or nothing. Without rows under the instructor, or
   with an ungraded row, it answers false and changes nothing; otherwise every
   row of the subject becomes closed and it answers true.
   */
  function CloseSubject(db: Db, instructor: UserId, sid: SubjectId): (r: (bool, Db))
    ensures r.0 <==> Closable(db, instructor, sid)
    ensures !r.0 ==> r.1 == db
    ensures r.0 ==> r.1 == db.(enrollments := r.1.enrollments)
    ensures r.0 ==> |r.1.enrollments| == |db.enrollments|
    ensures r.0 ==> forall i :: 0 <= i < |db.enrollments| && db.enrollments[i].subject == sid ==>
      r.1.enrollments[i] == db.enrollments[i].(state := Closed)
    ensures r.0 ==> forall i :: 0 <= i < |db.enrollments| && db.enrollments[i].subject != sid ==>
      r.1.enrollments[i] == db.enrollments[i]
  {
    var rows := StudentsBySubject(db, instructor, sid);
    if rows == [] then
      (false, db)
    else if FindIndex(rows, (e: Enrollment) => e.grade.None?).Some? then
      (false, db)
    else
      (true, db.(enrollments := CloseRows(db.enrollments, sid)))
  }

  lemma CloseSubjectWellFormed(db: Db, instructor: UserId, sid: SubjectId)
    requires WellFormed(db)
    ensures WellFormed(CloseSubject(db, instructor, sid).1)
  {
    if CloseSubject(db, instructor, sid).0 {
      SameShapeWellFormed(db, CloseRows(db.enrollments, sid));
    }
  }

  /** Closing a subject changes no student's GPA. */
  lemma CloseSubjectKeepsGpa(db: Db, instructor: UserId, sid: SubjectId, u: UserId)
    ensures Gpa(CloseSubject(db, instructor, sid).1, u) == Gpa(db, u)
  {
    var r := CloseSubject(db, instructor, sid);
    if r.0 {
      StudentGradesIgnoreState(db.enrollments, r.1.enrollments, u);
    }
  }

  /**
   Assigning a subject's instructor. The subject must exist, the instructor
   role must be seeded, and the user must hold it; any prior assignment is replaced.
   */
  function AssignInstructor(db: Db, sid: SubjectId, iu: UserId): (r: Result<Db>)
    ensures r.Ok? <==>
      sid in db.subjects && Instructor in db.roles && iu in db.users && db.users[iu].role == Some(Instructor)
    ensures r.Err? ==> r.error == NotFound
    ensures r.Ok? ==> r.value == db.(subjects := db.subjects[sid := db.subjects[sid].(instructor := Some(iu))])
  {
    if sid !in db.subjects then Err(NotFound)
    else if Instructor !in db.roles then Err(NotFound)
    else if iu !in db.users || db.users[iu].role != Some(Instructor) then Err(NotFound)
    else Ok(db.(subjects := db.subjects[sid := db.subjects[sid].(instructor := Some(iu))]))
  }

  lemma AssignInstructorWellFormed(db: Db, sid: SubjectId, iu: UserId)
    requires WellFormed(db)
    requires AssignInstructor(db, sid, iu).Ok?
    ensures WellFormed(AssignInstructor(db, sid, iu).value)
  {
  }
}
